=== FILE: README.md ===
# Email_Generator text sanitisation, modelled in Dafny

Email_Generator scrapes a careers page and asks a language model to list the job
postings it finds as JSON. For each job it asks the model for a cold referral
e-mail. The language-model calls themselves are not modelled. This project models
the deterministic string handling around them, and each model reply is an
arbitrary input string:

- **Reasoning-span removal** (`ThinkTags`). This is `re.sub(r"<think>[\s\S]*?</think>", "", text)`,
  case-insensitive in `Chain.extract_jobs` and case-sensitive in `Chain.write_mail`.
  In `extract_jobs` a `strip()` follows it.
- **JSON fragment location** (`Fragment`). This is `extract_json_from_text`, a greedy
  `re.search` for `{…}` or `[…]`.
- **The extraction pipeline** (`Extraction`). The model's reply is sanitised and the
  fragment is located, then parsed by a parser given as a parameter. An object
  becomes a one-element list. Every failure is wrapped in a single exception
  message that carries the sanitised reply.
- **Job rendering** (`Rendering`). This covers the `job_text` block built in `write_mail`
  and the skills line the page shows for each job, including the failure of
  `", ".join` on values that do not iterate to strings.
- **E-mail cleanup** (`Mail`). `write_mail` ends with span removal, `strip()` and
  `re.sub(r"\n\s*\n", "\n\n", …)`. The application then calls `normalize_email`,
  which is `strip()` followed by `re.sub(r"\n{3,}", "\n\n", …)`.
- **Shared text helpers** (`Text`): Python's ASCII whitespace, `str.strip()`, and
  `str.join` together with its inverse `str.split`. `Json` holds the parsed values and
  `dict.get`. `Wrappers` holds `Option` and `Result`.

Each regular expression is modelled by a recursive function that follows how
Python's engine scans. A reference characterisation sits beside it, and lemmas
connect the two:

- leftmost and greedy for the locator;
- leftmost and nearest closing tag for the lazy span;
- the greedy `\s*` reaching the last newline of a whitespace run in the mail cleanup.

## Model

| member | source | states |
|---|---|---|
| `Fragment.FirstStart` | app/chains.py:19 | The start found is the leftmost index holding `{` with a `}` somewhere after it, or `[` with a `]` after it; none is found exactly when no index qualifies |
| `Fragment.Locate` | app/chains.py:19 | The bounds found satisfy the reference `IsMatch`: the leftmost qualifying start, ending at the last occurrence in the whole text of the closer that start needs; none exactly when no index qualifies |
| `Fragment.MatchUnique` | app/chains.py:19 | The reference description of the match admits at most one match |
| `Fragment.ExtractJson` | app/chains.py:14-22 | Fails, with the message "No valid JSON found in model output", exactly when no index qualifies; otherwise returns a contiguous slice that is a match and that starts with an opener and ends with its own closer |
| `Fragment.ExtractJsonIs` | app/chains.py:19-22 | Whenever the reference description holds of some bounds, the locator returns exactly that slice |
| `Fragment.NoBracketsFails` | app/chains.py:20-21 | Text with no opening bracket, or with no closing bracket, raises |
| `Fragment.EmbeddedLiteral` | app/chains.py:19-22 | A bracketed literal is found whole whenever it sits after prose with no opening bracket and before text that does not repeat its closer, whatever lies inside it |
| `Fragment.UnbalancedMatch` | app/chains.py:19 | The match is not bracket-balanced: in `[{]}` the fragment is `[{]` |
| `Fragment.UnclosedSkipped` | app/chains.py:19 | An opening bracket never closed later is skipped: in `{ [1]` the fragment is `[1]` |
| `ThinkTags.NearestClose` | app/chains.py:77 | Where the lazy `[\s\S]*?` stops: a closing tag at or after the search start |
| `ThinkTags.NearestCloseLeftmost` | app/chains.py:77 | The closing tag found is the leftmost one from the search start, and none is found exactly when there is none |
| `ThinkTags.FirstSpan` | app/chains.py:76-80 | The span found starts with an opening tag and has a closing tag after it |
| `ThinkTags.FirstSpanLeftmost` | app/chains.py:76-80 | No span starts before the one found, and none is found exactly when no span starts anywhere |
| `ThinkTags.RemoveFirstSpan` | app/chains.py:76-80 | For the first opening tag and the nearest closing tag after it, the substitution keeps the text before the opening tag, drops everything through the closing tag, and goes on with the rest |
| `ThinkTags.SpanRemoved` | app/chains.py:76-80 | In `pre + <think> + mid + </think> + post`, where `pre` has no opening tag and `mid` has no closing tag, the result is `pre` followed by the substitution on `post` |
| `ThinkTags.RemoveSpans` | app/chains.py:76-80 | The substitution never lengthens the text |
| `ThinkTags.RemoveSpansChars` | app/chains.py:76-80 | The substitution adds no character: every character of the result occurs in the input |
| `ThinkTags.KeepsTail` | app/chains.py:76-80 | Everything from a `<` that has no closing tag at or after it survives as the end of the result |
| `ThinkTags.UnterminatedKept` | app/chains.py:76-80 | An opening tag with no closing tag after it, and everything that follows it, are left intact |
| `ThinkTags.NoTagUnchanged` | app/chains.py:76-81 | Text with no opening tag, or with no closing tag, passes through the substitution unchanged, so the extraction sanitiser only trims it |
| `ThinkTags.SanitizeRaw` | app/chains.py:76-81 | The sanitised reply is never longer than the reply and has no whitespace at either end |
| `ThinkTags.TagsRemovedTogether` | app/chains.py:77 | An opening tag directly followed by a closing tag is removed, with or without IGNORECASE |
| `ThinkTags.CaseSensitivity` | app/chains.py:158 | `<THINK>x</THINK>` is removed completely under IGNORECASE, as in extraction, and left exactly as it is by the case-sensitive substitution of the mail cleanup |
| `ThinkTags.SanitizeNotIdempotent` | app/chains.py:76-81 | Sanitising is not idempotent: removing the inner span of `<th<think></think>ink></think>` joins the halves into a new span, which a second pass removes |
| `Text.Strip` | app/chains.py:81 | `strip()` returns a slice of its input with only whitespace before and after it, and no whitespace at either end of its own |
| `Text.StripCharacterization` | app/chains.py:81 | Any slice framed by whitespace and with no whitespace at its own ends is exactly what `strip()` returns |
| `Text.StripIdempotent` | app/chains.py:81 | Stripping twice is stripping once |
| `Text.StripFixpoint` | app/main.py:13 | Text with no whitespace at either end is unchanged by `strip()` |
| `Text.StripChars` | app/chains.py:81 | Stripping adds no character |
| `Text.LastIndexOf` | app/chains.py:19 | The index of the last occurrence of a character, or -1 when it does not occur. The greedy `[\s\S]*` ends at this index |
| `Text.SplitJoin` | app/chains.py:111 | Joining a non-empty list with a separator is lossless when no item contains the separator's first character: splitting the joined text gives the items back in order |
| `Text.JoinEnds` | app/chains.py:111 | Python's `str.join` (`Text.Join`) of no items is the empty string; otherwise the join starts with the first item and ends with the last |
| `Text.JoinSnoc` | app/chains.py:111 | Joining one more item appends the separator and that item |
| `Json.Get` | app/chains.py:109-112 | `dict.get` on an object: nothing exactly when no member has the key, otherwise the value of the last member with that key |
| `Json.Truthy` | app/main.py:134 | The truth test of `if skills`: a value is false exactly when it is `None`, `False`, zero, the empty string, the empty list or the empty dict |
| `Json.Keys` | app/chains.py:111 | Iterating a dict yields each distinct key once, and nothing else, in the order of each key's first occurrence |
| `Extraction.Normalize` | app/chains.py:90-93 | A parsed object becomes the list holding just that object. Every other value, scalars included, is returned unchanged, so the result is never an object |
| `Extraction.NormalizeIdempotent` | app/chains.py:90-93 | Normalising an already normalised value changes nothing |
| `Extraction.ErrorMessage` | app/chains.py:96-100 | The message is the fixed heading, then the sanitised reply, then the error heading, then the original error text, each recoverable at its position |
| `Extraction.ErrorMessageInjective` | app/chains.py:95-100 | Two failures with the same message, and sanitised replies of the same length, had the same sanitised reply and the same error text |
| `Extraction.ExtractJobs` | app/chains.py:76-100 | Succeeds exactly when a fragment is found and the parser accepts it, and then yields the normalised value. A missing fragment becomes a failure whose message embeds the sanitised reply and the text of the locator's exception. A parser error becomes a failure whose message embeds the sanitised reply and the parser's error text |
| `Extraction.ExtractJobsShape` | app/chains.py:90-100 | A success is never a bare object, and every failure message embeds the sanitised reply |
| `Extraction.ReasoningThenFencedJson` | app/chains.py:76-93 | For a reply made of a reasoning span and then a fenced JSON literal, with any whitespace before and after the fence, the parser sees exactly the literal. The outcome is its normalised value, or a failure reporting the fenced text |
| `Extraction.SanitizedReasoning` | app/chains.py:76-81 | A reasoning span at the front of a reply, followed by text without `<`, is removed, and the text after it is only trimmed |
| `Extraction.NoJsonReported` | app/chains.py:84-100 | A reply with no opening bracket fails with the text of the locator's exception, raised with "No valid JSON found in model output" and wrapped with the sanitised reply |
| `Rendering.Iterate` | app/chains.py:111 | `iter()` yields the one-character strings of a string, the items of a list, and the keys of a dict as strings in first-occurrence order. Numbers, booleans and `None` do not iterate |
| `Rendering.FirstNonString` | app/chains.py:111 | The first item that is not a string, with every item before it a string |
| `Rendering.JoinValue` | app/chains.py:111 | `", ".join` fails with "not iterable" exactly when the value does not iterate. It succeeds exactly when every item is a string, and then gives the join of their texts. Otherwise it fails at the first item that is not a string |
| `Rendering.Display` | app/chains.py:109-112 | The f-string display of a value: a string shows as itself, `None` as `None`, and booleans as `True` or `False` |
| `Rendering.FieldText` | app/chains.py:109-112 | A missing key renders as the empty string, and a present one as the display of its value |
| `Rendering.SkillsText` | app/chains.py:111 | Missing skills join to the empty string. Present skills are joined with `", "` |
| `Rendering.Block` | app/chains.py:108-113 | The `job_text` template: it opens and closes with a newline, and its length is that of the four labels and four fields plus the five newlines. Its lines are given by `Rendering.BlockLines` |
| `Rendering.JobText` | app/chains.py:108-113 | A record that is not an object fails. For an object, rendering fails exactly when the skills join fails, and otherwise gives the four labelled fields between newlines |
| `Rendering.BlockLines` | app/chains.py:108-113 | When no field holds a newline, splitting the block at newlines gives back an empty line, the four labelled fields in order, and an empty line |
| `Rendering.EmptyRecord` | app/chains.py:108-113 | An empty object renders every field, skills included, as the empty string |
| `Rendering.SkillsRecovered` | app/chains.py:111 | A non-empty list of skills without commas appears in the block in order, and splitting at `", "` gives it back |
| `Rendering.StringSkillsSpelledOut` | app/chains.py:111 | A string where the list belongs is joined character by character: `"Go"` renders as `G, o` |
| `Rendering.SkillsDisplay` | app/main.py:133-134 | A missing or falsy skills value shows `Not specified`. A truthy one shows its `", "`-join, and a record that is not an object fails |
| `Rendering.SkillsDisplayMatchesBlock` | app/main.py:133-134 | For truthy skills the display line and the rendered block agree. Missing skills show `Not specified` on the page and an empty join in the block |
| `Rendering.SkillsDisplayOfList` | app/main.py:133-134 | An empty list of skills shows `Not specified`, and a non-empty list shows its items in order, joined with `", "` |
| `Mail.BlankLen` | app/chains.py:159 | The greedy `\s*\n` after a newline reaches the last newline of the whitespace run: all of it is whitespace, it ends in a newline, and no newline lies in the whitespace after it |
| `Mail.Collapse` | app/chains.py:159 | The substitution never lengthens the text and keeps its first and last characters |
| `Mail.BlankStretch` | app/chains.py:159 | Anywhere in the text, every stretch from a newline, through whitespace, to a later newline that is the last one of its run becomes exactly one blank line. The text before the stretch is collapsed on its own, the spaces just before the first newline are kept, and the scan goes on after the stretch |
| `Mail.CollapseAppend` | app/chains.py:159 | No match reaches back across a visible character: the text up to one is collapsed independently of what follows |
| `Mail.CollapseAhead` | app/chains.py:159 | The substitution keeps whether the leading whitespace contains a newline |
| `Mail.CollapseTight` | app/chains.py:159 | After the substitution, two newlines separated only by whitespace are adjacent, and no three newlines follow each other |
| `Mail.CollapseFixpoint` | app/chains.py:159 | Text whose newlines already sit tight is left unchanged |
| `Mail.CollapseIdempotent` | app/chains.py:159 | Collapsing twice is collapsing once |
| `Mail.CollapseKeepsVisible` | app/chains.py:159 | The non-whitespace characters come through unchanged and in order |
| `Mail.TightNoTriple` | app/chains.py:159 | Tight text never contains three newlines in a row |
| `Mail.CleanupMail` | app/chains.py:158-159 | The cleaned e-mail is no longer than the reply, has no whitespace at either end, has its newlines tight, and never contains three newlines in a row |
| `Mail.Lead` | app/main.py:14 | The length of the run of newlines at the start of the text |
| `Mail.Squeeze` | app/main.py:14 | The substitution never lengthens the text and keeps its first and last characters |
| `Mail.SqueezeLead` | app/main.py:14 | The result starts with as many newlines as the input, but at most two |
| `Mail.SqueezeNoTriple` | app/main.py:14 | The result never holds three newlines in a row |
| `Mail.SqueezeFixpoint` | app/main.py:14 | Text without three newlines in a row is unchanged |
| `Mail.SqueezeRun` | app/main.py:14 | Anywhere in the text, a maximal run of three or more newlines becomes exactly two, and the text on either side is squeezed on its own |
| `Mail.SqueezeShortRun` | app/main.py:14 | Anywhere in the text, a maximal run of one or two newlines passes through unchanged |
| `Mail.SqueezeAppend` | app/main.py:14 | No run reaches back across a character other than a newline: the text up to one is squeezed independently of what follows |
| `Mail.SqueezeKeepsOthers` | app/main.py:14 | Every character other than a newline, whitespace included, comes through unchanged and in order |
| `Mail.NormalizeEmail` | app/main.py:9-15 | The normalised e-mail is never longer than its input, has no whitespace at either end, and holds no run of three newlines |
| `Mail.NormalizeEmailIdempotent` | app/main.py:13-15 | Normalising twice is normalising once |
| `Mail.NormalizeAfterCleanup` | app/main.py:140 | Normalising the output of `write_mail`'s cleanup changes nothing |

## Left out

- The language-model calls, prompt templates and `ChatGroq` set-up (app/chains.py:26-33, 41-73, 115-155) are external services and library plumbing. The model's reply is an arbitrary input string.
- `JsonOutputParser.parse` (app/chains.py:87) belongs to a library. It is the parameter `parse` of `Extraction.ExtractJobs`, which returns a value or an error text.
- The `UnboundLocalError` raised when `chain.invoke` itself fails before `raw_output` is assigned (app/chains.py:70, 98) depends on the transport and is not modelled.
- `Extraction.ExtractJobs`: the exception type (`OutputParserException`) and its chaining are not modelled. Only the message is. The text that `str()` gives for the locator's exception is the parameter `shown`, because the exception class belongs to a library that may add to the message it was raised with.
- `Text.IsSpace`: whitespace is the ASCII set of `str.isspace()` and of `\s`. Python also counts non-ASCII spaces (for example U+00A0 and U+2028), and these are not modelled.
- `ThinkTags.Lower`: IGNORECASE folds ASCII letters only. Python's IGNORECASE also matches some non-ASCII letters against the letters of `think`: for example `İ` (U+0130) and the dotless `ı` (U+0131) against `i`, and the Kelvin sign (U+212A) against `k`. The model does not.
- `Rendering.Display`: Python's `str()` of numbers, lists and dicts is the parameter `show`. Only strings, `None` and booleans have a fixed display.
- `Json.Value`: a JSON number is a `real`. Python's parser keeps `3` and `3.0` apart, printing them differently, and also accepts `NaN` and `Infinity`; a `real` holds neither distinction. Their display is left to the parameter `show`, and truthiness agrees.
- `Json.Get`: a repeated key in a parsed object keeps its last value, as a dict built from the members would. The parser itself is not modelled.
- The Streamlit page, CSS, `WebBaseLoader`, `Portfolio` and `clean_text` (app/main.py:18-118, 137) are presentation, network and vector-store code. `clean_text` and `Portfolio` are not part of this model.
- `.env` loading and the `__main__` blocks are not modelled.

## Where the code differs from its docstrings

The code is modelled as written wherever it differs from its own docstrings:

- The docstring of `extract_json_from_text` (app/chains.py:16) promises "the
  first valid JSON object or array". The pattern checks neither validity nor
  balance. It skips an opening bracket with no closer after it
  (`Fragment.UnclosedSkipped`), and it ends at the last matching closer in the
  whole text (`Fragment.UnbalancedMatch`).
- The docstring of `extract_jobs` (app/chains.py:38) promises "a list of job
  dicts". A parsed object is wrapped in a list, but any other parsed value,
  a scalar or a string included, is returned as it is (`Extraction.Normalize`).

Further facts about the code:

- The mail cleanup removes reasoning spans case-sensitively, unlike extraction
  (`ThinkTags.CaseSensitivity`). It removes no other tags.
- Span removal is not idempotent (`ThinkTags.SanitizeNotIdempotent`).
- `job_text` is computed, but the mail prompt has no `{job_description}`
  placeholder. Its only observable effect is that `job.get` or `", ".join` can
  raise (`Rendering.JobText`).

=== FILE: extraction.dfy ===
/** The deterministic part of `Chain.extract_jobs`: the model's raw reply is
    cleaned of reasoning spans and trimmed, the JSON fragment is located and
    handed to the JSON parser, and a parsed object is wrapped in a list. Any
    failure along the way is re-raised as one exception whose message embeds
    the cleaned reply. The language-model call is not modelled: its reply is
    the input. The JSON parser, and the text of the exception raised when no
    fragment is found, belong to a library and are parameters. */
module Extraction {
  import opened Wrappers
  import opened Text
  import opened Json
  import opened ThinkTags
  import opened Fragment

  /** A parser for JSON text: a value, or the text of the error it raised. */
  type Parser = string -> Result<Value, string>

  /** `str(e)` of an `OutputParserException` raised with message `m`. The
      exception class belongs to a library that may decorate the message. */
  type Shown = string -> string

  /** A parsed object becomes a one-element list; every other value,
      including scalars, is passed on as it is. */
  function Normalize(v: Value): (r: Value)
    ensures !r.Object?
    ensures v.Object? ==> r.Array? && r.items == [v]
    ensures !v.Object? ==> r == v
  {
    if v.Object? then Array([v]) else v
  }

  /** Normalising twice is normalising once. */
  lemma NormalizeIdempotent(v: Value)
    ensures Normalize(Normalize(v)) == Normalize(v)
  {
  }

  const FailureHead: string := "JSON parsing failed after sanitization.\n\nRAW OUTPUT:\n"
  const ErrorHead: string := "\n\nERROR:\n"

  /** The message of the re-raised exception. */
  function ErrorMessage(raw: string, err: string): (m: string)
    ensures |m| == |FailureHead| + |raw| + |ErrorHead| + |err|
    ensures m[..|FailureHead|] == FailureHead
    ensures m[|FailureHead|..|FailureHead| + |raw|] == raw
    ensures m[|FailureHead| + |raw|..|m| - |err|] == ErrorHead
    ensures m[|m| - |err|..] == err
  {
    var m := FailureHead + raw + ErrorHead + err;
    assert m[|FailureHead|..|FailureHead| + |raw|] == raw;
    assert m[|FailureHead| + |raw|..|m| - |err|] == ErrorHead;
    assert m[|m| - |err|..] == err;
    m
  }

  /** The cleaned text and the error message give the message back: the
      message determines both. */
  lemma ErrorMessageInjective(raw: string, err: string, raw': string, err': string)
    requires |raw| == |raw'|
    requires ErrorMessage(raw, err) == ErrorMessage(raw', err')
    ensures raw == raw' && err == err'
  {
    var m := ErrorMessage(raw, err);
    assert raw == m[|FailureHead|..|FailureHead| + |raw|];
    assert err == m[|m| - |err|..];
  }

  /** `extract_jobs` on the language model's reply `reply`. */
  function ExtractJobs(reply: string, parse: Parser, shown: Shown): (r: Result<Value, string>)
    ensures var raw := SanitizeRaw(reply);
            var frag := ExtractJson(raw);
            && (r.Success? <==> frag.Success? && parse(frag.value).Success?)
            && (r.Success? ==> r.value == Normalize(parse(frag.value).value))
            && (frag.Failure? ==> r == Failure(ErrorMessage(raw, shown(NoJsonMessage))))
            && (frag.Success? && parse(frag.value).Failure? ==>
                 r == Failure(ErrorMessage(raw, parse(frag.value).error)))
  {
    var raw := SanitizeRaw(reply);
    match ExtractJson(raw)
    case Failure(e) => Failure(ErrorMessage(raw, shown(e)))
    case Success(json) =>
      match parse(json)
      case Failure(e) => Failure(ErrorMessage(raw, e))
      case Success(v) => Success(Normalize(v))
  }

  /** Every failure carries the cleaned reply, and a successful result is
      never a bare object. */
  lemma ExtractJobsShape(reply: string, parse: Parser, shown: Shown)
    ensures var r := ExtractJobs(reply, parse, shown);
            && (r.Success? ==> !r.value.Object?)
            && (r.Failure? ==> exists err :: r.error == ErrorMessage(SanitizeRaw(reply), err))
  {
    var raw := SanitizeRaw(reply);
    var frag := ExtractJson(raw);
    if frag.Failure? {
      assert ExtractJobs(reply, parse, shown).error == ErrorMessage(raw, shown(NoJsonMessage));
    } else if parse(frag.value).Failure? {
      assert ExtractJobs(reply, parse, shown).error == ErrorMessage(raw, parse(frag.value).error);
    }
  }

  /** A reply that is a reasoning span followed by a fenced JSON literal,
      with any whitespace around the fence: the span is dropped, the fence
      is found around the literal, and the parser sees exactly the literal. */
  lemma ReasoningThenFencedJson(reply: string, thought: string, gap: string, lit: string, trail: string,
                                parse: Parser, shown: Shown)
    requires forall k: nat :: !TagAt(thought, k, Close, true)
    requires AllSpace(gap) && AllSpace(trail)
    requires '<' !in lit
    requires |lit| >= 2 && IsOpener(lit[0]) && lit[|lit| - 1] == Closer(lit[0])
    requires reply == Open + thought + Close + gap + Fence(lit) + trail
    ensures ExtractJobs(reply, parse, shown)
            == match parse(lit)
               case Success(v) => Success(Normalize(v))
               case Failure(e) => Failure(ErrorMessage(Fence(lit), e))
  {
    var fenced := Fence(lit);
    var rest := gap + fenced + trail;
    assert reply == Open + thought + Close + rest;
    SpaceHasNoLt(gap);
    SpaceHasNoLt(trail);
    assert '<' !in rest;
    SanitizedReasoning(reply, thought, rest);
    assert rest[..|gap|] == gap && rest[|gap|..|gap| + |fenced|] == fenced;
    assert rest[|gap| + |fenced|..] == trail;
    StripCharacterization(rest, |gap|, |gap| + |fenced|);
    FenceHasNoBrackets();
    EmbeddedLiteral(FenceOpen, lit, FenceClose);
  }

  lemma SpaceHasNoLt(s: string)
    requires AllSpace(s)
    ensures '<' !in s
  {
  }

  const FenceOpen: string := "```json\n"
  const FenceClose: string := "\n```"

  lemma FenceHasNoBrackets()
    ensures '{' !in FenceOpen && '[' !in FenceOpen && '}' !in FenceClose && ']' !in FenceClose
  {
  }

  /** A Markdown code fence around `lit`. */
  function Fence(lit: string): (f: string)
    requires '<' !in lit
    ensures '<' !in f && |f| > 0 && NoEdgeSpace(f)
  {
    var f := FenceOpen + lit + FenceClose;
    assert forall i :: 0 <= i < |f| && f[i] == '<' ==> i >= |FenceOpen| && lit[i - |FenceOpen|] == '<';
    f
  }

  /** A leading reasoning span is removed from text without `<`, and what
      follows it is only trimmed. */
  lemma SanitizedReasoning(reply: string, thought: string, rest: string)
    requires forall k: nat :: !TagAt(thought, k, Close, true)
    requires '<' !in rest
    requires reply == Open + thought + Close + rest
    ensures SanitizeRaw(reply) == Strip(rest)
  {
    assert "" + Open + thought + Close + rest == reply;
    TagsMatchThemselves(true);
    NoLtNoTag("", Open, true);
    SpanRemoved("", Open, thought, Close, rest, true);
    NoLtNoTag(rest, Open, true);
    NoTagUnchanged(rest, true);
    assert RemoveSpans(reply, true) == "" + RemoveSpans(rest, true) == rest;
  }

  /** A reply without any JSON bracket fails with the locator's exception,
      reported together with the cleaned reply. */
  lemma NoJsonReported(reply: string, parse: Parser, shown: Shown)
    requires '{' !in reply && '[' !in reply
    ensures ExtractJobs(reply, parse, shown) == Failure(ErrorMessage(SanitizeRaw(reply), shown(NoJsonMessage)))
  {
    RemoveSpansChars(reply, true);
    StripChars(RemoveSpans(reply, true));
  }
}

=== FILE: fragment.dfy ===
/** The JSON fragment locator `extract_json_from_text`: Python's
    `re.search(r"(\{[\s\S]*\}|\[[\s\S]*\])", text)`. The search tries each
    start index from the left. At an index holding `{` the first alternative
    needs some `}` later in the text, and because `[\s\S]*` is greedy the
    match runs to the LAST `}` of the whole text; likewise `[` with the last
    `]`. An opening bracket with no closer after it is skipped. Brackets are
    not balanced or nested in any way. */
module Fragment {
  import opened Wrappers
  import opened Text

  /** The message of the `OutputParserException` raised when nothing matches. */
  const NoJsonMessage: string := "No valid JSON found in model output"

  predicate IsOpener(c: char) {
    c == '{' || c == '['
  }

  /** The closer that ends a match begun by opener `c`. */
  function Closer(c: char): char {
    if c == '{' then '}' else ']'
  }

  /** A match can start at `i`: an opening bracket there and its closer
      somewhere after it. */
  predicate Qualifies(s: string, i: nat)
    requires i < |s|
  {
    IsOpener(s[i]) && exists j :: i < j < |s| && s[j] == Closer(s[i])
  }

  /** The regular expression's match is `s[a..b]`: `a` is the leftmost start
      that qualifies, `s[b - 1]` is its closer, and that closer does not occur
      after it. */
  predicate IsMatch(s: string, a: nat, b: nat) {
    && a < b <= |s|
    && Qualifies(s, a)
    && (forall k :: 0 <= k < a ==> !Qualifies(s, k))
    && s[b - 1] == Closer(s[a])
    && (forall k :: b <= k < |s| ==> s[k] != Closer(s[a]))
  }

  /** There is at most one match. */
  lemma MatchUnique(s: string, a: nat, b: nat, a': nat, b': nat)
    requires IsMatch(s, a, b) && IsMatch(s, a', b')
    ensures a == a' && b == b'
  {
  }

  /** The leftmost qualifying index from `from` on, given the last index of
      each closer in the whole text (Python's `rfind`, or -1). */
  function FirstStart(s: string, from: nat, lastBrace: int, lastBracket: int): (r: Option<nat>)
    requires from <= |s|
    requires lastBrace == LastIndexOf(s, '}') && lastBracket == LastIndexOf(s, ']')
    decreases |s| - from
    ensures r.Some? ==> from <= r.value < |s| && Qualifies(s, r.value)
    ensures r.Some? ==> forall k :: from <= k < r.value ==> !Qualifies(s, k)
    ensures r.None? ==> forall k :: from <= k < |s| ==> !Qualifies(s, k)
  {
    if from == |s| then None
    else if (s[from] == '{' && lastBrace > from) || (s[from] == '[' && lastBracket > from) then
      Some(from)
    else
      FirstStart(s, from + 1, lastBrace, lastBracket)
  }

  /** The bounds `(a, b)` of the match, if there is one. */
  function Locate(s: string): (r: Option<(nat, nat)>)
    ensures r.Some? ==> IsMatch(s, r.value.0, r.value.1)
    ensures r.None? <==> forall i :: 0 <= i < |s| ==> !Qualifies(s, i)
  {
    var lastBrace := LastIndexOf(s, '}');
    var lastBracket := LastIndexOf(s, ']');
    match FirstStart(s, 0, lastBrace, lastBracket)
    case None => None
    case Some(a) =>
      var last := if s[a] == '{' then lastBrace else lastBracket;
      Some((a, last + 1))
  }

  /** `extract_json_from_text`: the matched text, or the exception's message. */
  function ExtractJson(s: string): (r: Result<string, string>)
    ensures r.Failure? <==> forall i :: 0 <= i < |s| ==> !Qualifies(s, i)
    ensures r.Failure? ==> r.error == NoJsonMessage
    ensures r.Success? ==> exists a: nat, b: nat :: IsMatch(s, a, b) && r.value == s[a..b]
    ensures r.Success? ==> |r.value| >= 2 && IsOpener(r.value[0])
                           && r.value[|r.value| - 1] == Closer(r.value[0])
  {
    match Locate(s)
    case None => Failure(NoJsonMessage)
    case Some((a, b)) => Success(s[a..b])
  }

  /** The match, when it exists, is exactly what the locator returns. */
  lemma ExtractJsonIs(s: string, a: nat, b: nat)
    requires IsMatch(s, a, b)
    ensures ExtractJson(s) == Success(s[a..b])
  {
    var r := Locate(s);
    assert r.Some?;
    MatchUnique(s, a, b, r.value.0, r.value.1);
  }

  /** Text without an opening bracket, or without any closer, holds no JSON. */
  lemma NoBracketsFails(s: string)
    requires ('{' !in s && '[' !in s) || ('}' !in s && ']' !in s)
    ensures ExtractJson(s) == Failure(NoJsonMessage)
  {
  }

  /** A literal embedded in prose is found exactly: the text before it has no
      opening bracket, the literal starts with an opener and ends with its
      closer, and the text after it does not contain that closer. Such a
      literal is found whatever it holds in between, balanced or not. */
  lemma EmbeddedLiteral(prefix: string, lit: string, suffix: string)
    requires '{' !in prefix && '[' !in prefix
    requires |lit| >= 2 && IsOpener(lit[0]) && lit[|lit| - 1] == Closer(lit[0])
    requires Closer(lit[0]) !in suffix
    ensures ExtractJson(prefix + lit + suffix) == Success(lit)
  {
    var s := prefix + lit + suffix;
    var a, b := |prefix|, |prefix| + |lit|;
    assert s[a] == lit[0] && s[b - 1] == lit[|lit| - 1];
    forall k | 0 <= k < a ensures !Qualifies(s, k) {
      assert s[k] == prefix[k];
    }
    forall k | b <= k < |s| ensures s[k] != Closer(s[a]) {
      assert s[k] == suffix[k - b];
    }
    assert IsMatch(s, a, b);
    ExtractJsonIs(s, a, b);
    assert s[a..b] == lit;
  }

  /** The match is not bracket-balanced: a `[` before an object captures
      up to the last `]`, cutting the object short. */
  lemma UnbalancedMatch(s: string)
    requires s == "[{]}"
    ensures ExtractJson(s) == Success("[{]")
  {
    assert Qualifies(s, 0) by { assert s[2] == ']'; }
    assert IsMatch(s, 0, 3);
    ExtractJsonIs(s, 0, 3);
    assert s[0..3] == "[{]";
  }

  /** An opening bracket never closed later is skipped, not chosen. */
  lemma UnclosedSkipped(s: string)
    requires s == "{ [1]"
    ensures ExtractJson(s) == Success("[1]")
  {
    assert !Qualifies(s, 0);
    assert Qualifies(s, 2) by { assert s[4] == ']'; }
    assert IsMatch(s, 2, 5);
    ExtractJsonIs(s, 2, 5);
    assert s[2..5] == "[1]";
  }
}

=== FILE: json.dfy ===
/** Parsed JSON values as the Python program sees them after the parser has
    run: `None`, `bool`, numbers, `str`, `list` and `dict`. An object keeps
    its members in text order; as with a Python `dict` built from them, a
    repeated key takes the value of its last occurrence and keeps the
    position of its first. */
module Json {
  import opened Wrappers

  datatype Value =
    | Null
    | Bool(b: bool)
    | Number(n: real)
    | Str(s: string)
    | Array(items: seq<Value>)
    | Object(fields: seq<(string, Value)>)

  /** `d.get(key)` on the dict built from `fields`: the value of the last
      member named `key`, if any. */
  function Get(fields: seq<(string, Value)>, key: string): (r: Option<Value>)
    decreases |fields|
    ensures r.None? <==> forall i :: 0 <= i < |fields| ==> fields[i].0 != key
    ensures r.Some? ==> exists i :: 0 <= i < |fields| && fields[i] == (key, r.value)
                                    && forall j :: i < j < |fields| ==> fields[j].0 != key
  {
    if |fields| == 0 then None
    else if fields[|fields| - 1].0 == key then Some(fields[|fields| - 1].1)
    else Get(fields[..|fields| - 1], key)
  }

  /** The index of the first member named `key`, or `|fields|` when there is none. */
  function FirstIndex(fields: seq<(string, Value)>, key: string): (n: nat)
    decreases |fields|
    ensures n <= |fields|
    ensures n < |fields| ==> fields[n].0 == key
    ensures forall m :: 0 <= m < n ==> fields[m].0 != key
  {
    if |fields| == 0 || fields[0].0 == key then 0 else 1 + FirstIndex(fields[1..], key)
  }

  /** The first occurrence of a key in a prefix is its first occurrence in
      the whole; a key absent from the prefix first occurs after it. */
  lemma FirstIndexPrefix(fields: seq<(string, Value)>, pre: seq<(string, Value)>, key: string)
    requires |pre| <= |fields| && pre == fields[..|pre|]
    ensures FirstIndex(pre, key) < |pre| ==> FirstIndex(fields, key) == FirstIndex(pre, key)
    ensures FirstIndex(pre, key) == |pre| ==> FirstIndex(fields, key) >= |pre|
  {
    var p := FirstIndex(pre, key);
    assert forall m :: 0 <= m < p ==> fields[m] == pre[m];
    if p < |pre| {
      assert fields[p] == pre[p];
      FirstIndexIs(fields, key, p);
    }
  }

  /** The first member named `key` is at `p`. */
  lemma FirstIndexIs(fields: seq<(string, Value)>, key: string, p: nat)
    requires p < |fields| && fields[p].0 == key
    requires forall m :: 0 <= m < p ==> fields[m].0 != key
    ensures FirstIndex(fields, key) == p
  {
  }

  /** The dict's keys in iteration order: each distinct key once, in the
      order of first occurrence. */
  function Keys(fields: seq<(string, Value)>): (r: seq<string>)
    decreases |fields|
    ensures forall k :: k in r <==> exists i :: 0 <= i < |fields| && fields[i].0 == k
    ensures forall i, j :: 0 <= i < j < |r| ==> r[i] != r[j]
    ensures forall i, j :: 0 <= i < j < |r| ==> FirstIndex(fields, r[i]) < FirstIndex(fields, r[j])
  {
    if |fields| == 0 then []
    else
      var n := |fields| - 1;
      var ks := Keys(fields[..n]);
      var k := fields[n].0;
      KeysOrderStep(fields, fields[..n], ks);
      if k in ks then ks else ks + [k]
  }

  /** The keys of all but the last member keep their order in the whole, and
      all come before a key that first occurs in the last member. */
  lemma KeysOrderStep(fields: seq<(string, Value)>, pre: seq<(string, Value)>, ks: seq<string>)
    requires |fields| > 0 && pre == fields[..|fields| - 1]
    requires forall k :: k in ks <==> exists i :: 0 <= i < |pre| && pre[i].0 == k
    requires forall i, j :: 0 <= i < j < |ks| ==> FirstIndex(pre, ks[i]) < FirstIndex(pre, ks[j])
    ensures forall i :: 0 <= i < |ks| ==> FirstIndex(fields, ks[i]) < |pre|
    ensures forall i, j :: 0 <= i < j < |ks| ==> FirstIndex(fields, ks[i]) < FirstIndex(fields, ks[j])
    ensures fields[|pre|].0 !in ks ==> FirstIndex(fields, fields[|pre|].0) == |pre|
  {
    KeysKeepIndex(fields, pre, ks);
    var k := fields[|pre|].0;
    if k !in ks {
      NewKeyLast(fields, pre, k);
    }
  }

  /** Each key of the prefix first occurs in the whole where it first occurs
      in the prefix. */
  lemma KeysKeepIndex(fields: seq<(string, Value)>, pre: seq<(string, Value)>, ks: seq<string>)
    requires |pre| <= |fields| && pre == fields[..|pre|]
    requires forall k :: k in ks ==> exists i :: 0 <= i < |pre| && pre[i].0 == k
    ensures forall i :: 0 <= i < |ks| ==> FirstIndex(pre, ks[i]) < |pre|
                                          && FirstIndex(fields, ks[i]) == FirstIndex(pre, ks[i])
  {
    forall i | 0 <= i < |ks|
      ensures FirstIndex(pre, ks[i]) < |pre| && FirstIndex(fields, ks[i]) == FirstIndex(pre, ks[i])
    {
      assert ks[i] in ks;
      var w :| 0 <= w < |pre| && pre[w].0 == ks[i];
      FirstIndexPrefix(fields, pre, ks[i]);
    }
  }

  /** A key absent from the prefix that names the member right after it
      first occurs there. */
  lemma NewKeyLast(fields: seq<(string, Value)>, pre: seq<(string, Value)>, k: string)
    requires |pre| < |fields| && pre == fields[..|pre|] && fields[|pre|].0 == k
    requires forall i :: 0 <= i < |pre| ==> pre[i].0 != k
    ensures FirstIndex(fields, k) == |pre|
  {
    forall m | 0 <= m < |pre|
      ensures fields[m].0 != k
    {
      assert fields[m] == pre[m];
    }
    FirstIndexIs(fields, k, |pre|);
  }

  /** Python truthiness: `None`, `False`, zero and empty containers are false. */
  predicate Truthy(v: Value)
    ensures !Truthy(v) <==> v == Null || v == Bool(false) || v == Number(0.0) || v == Str("")
                            || v == Array([]) || v == Object([])
  {
    match v
    case Null => false
    case Bool(b) => b
    case Number(n) => n != 0.0
    case Str(s) => |s| > 0
    case Array(items) => |items| > 0
    case Object(fields) => |fields| > 0
  }
}

=== FILE: mail.dfy ===
/** Post-processing of the generated e-mail. `Chain.write_mail` removes
    reasoning spans (case-sensitively), trims, and replaces every match of
    `\n\s*\n` with a blank line; `normalize_email` trims again and replaces
    every run of three or more newlines with two. */
module Mail {
  import opened Text
  import opened ThinkTags

  // ---------------------------------------------------------------------
  // Blank-line collapsing: re.sub(r"\n\s*\n", "\n\n", t)

  /** The leading whitespace of `s` contains a newline. */
  predicate NewlineAhead(s: string)
    decreases |s|
  {
    |s| > 0 && (s[0] == '\n' || (IsSpace(s[0]) && NewlineAhead(s[1..])))
  }

  /** The length of the prefix of `s` up to and including the last newline
      of its leading whitespace: how far the greedy `\s*\n` reaches. */
  function BlankLen(s: string): (n: nat)
    requires NewlineAhead(s)
    decreases |s|
    ensures 0 < n <= |s| && s[n - 1] == '\n'
    ensures forall m :: 0 <= m < n ==> IsSpace(s[m])
    ensures !NewlineAhead(s[n..])
  {
    if NewlineAhead(s[1..]) then
      var n := 1 + BlankLen(s[1..]);
      assert s[1..][n - 1..] == s[n..];
      n
    else 1
  }

  /** After a newline, `s` continues with at most one more newline before
      the next non-whitespace character, and if there is one it comes
      immediately. */
  predicate GapOk(s: string) {
    if |s| > 0 && s[0] == '\n' then !NewlineAhead(s[1..]) else !NewlineAhead(s)
  }

  /** Every newline of `s` is followed as `GapOk` says: two newlines with
      only whitespace between them are adjacent, and there are never three. */
  predicate Tight(s: string)
    decreases |s|
  {
    |s| == 0 || ((s[0] == '\n' ==> GapOk(s[1..])) && Tight(s[1..]))
  }

  /** A match of `\n\s*\n` starts at the front of `t`. */
  predicate StartsBlank(t: string) {
    |t| > 0 && t[0] == '\n' && NewlineAhead(t[1..])
  }

  /** Where the match at the front of `t` ends: past the last newline of the
      whitespace that follows the first one. */
  function BlankEnd(t: string): (e: nat)
    requires StartsBlank(t)
    ensures 2 <= e <= |t| && t[e - 1] == '\n'
    ensures forall m :: 0 <= m < e ==> IsSpace(t[m])
    ensures !NewlineAhead(t[e..])
  {
    var n := BlankLen(t[1..]);
    assert t[1..][n..] == t[1 + n..];
    1 + n
  }

  /** `re.sub(r"\n\s*\n", "\n\n", t)`: the scan copies characters, and at a
      newline whose following whitespace holds another newline it replaces
      everything up to the last such newline with a blank line. */
  function Collapse(t: string): (r: string)
    decreases |t|
    ensures |r| <= |t|
    ensures |t| > 0 ==> |r| > 0 && r[0] == t[0] && r[|r| - 1] == t[|t| - 1]
  {
    if |t| == 0 then ""
    else if StartsBlank(t) then
      var tail := t[BlankEnd(t)..];
      var rest := Collapse(tail);
      assert |rest| > 0 ==> rest[|rest| - 1] == tail[|tail| - 1] == t[|t| - 1];
      "\n\n" + rest
    else
      var rest := Collapse(t[1..]);
      assert |rest| > 0 ==> rest[|rest| - 1] == t[1..][|t| - 2] == t[|t| - 1];
      [t[0]] + rest
  }

  lemma AheadCons(c: char, s: string, r: string)
    requires r == [c] + s
    ensures NewlineAhead(r) <==> c == '\n' || (IsSpace(c) && NewlineAhead(s))
  {
    assert r[1..] == s;
  }

  /** Collapsing keeps whether a newline lies ahead in the leading whitespace. */
  lemma {:induction false} CollapseAhead(t: string)
    ensures NewlineAhead(Collapse(t)) <==> NewlineAhead(t)
    decreases |t|
  {
    if |t| > 0 && !StartsBlank(t) {
      var rest := Collapse(t[1..]);
      CollapseAhead(t[1..]);
      AheadCons(t[0], rest, Collapse(t));
      AheadCons(t[0], t[1..], t);
    }
  }

  lemma GapOkOfNoAhead(s: string)
    requires !NewlineAhead(s)
    ensures GapOk(s)
  {
  }

  lemma PairTight(rest: string, r: string)
    requires Tight(rest) && !NewlineAhead(rest) && r == "\n\n" + rest
    ensures Tight(r)
  {
    assert r[1..] == "\n" + rest;
    assert r[1..][1..] == rest;
    GapOkOfNoAhead(rest);
  }

  lemma ConsTight(c: char, rest: string, r: string)
    requires Tight(rest) && r == [c] + rest
    requires c == '\n' ==> !NewlineAhead(rest)
    ensures Tight(r)
  {
    assert r[1..] == rest;
    if c == '\n' {
      GapOkOfNoAhead(rest);
    }
  }

  /** After collapsing, newlines sit tight: between two newlines separated
      only by whitespace there is nothing, and three never follow each other. */
  lemma {:induction false} CollapseTight(t: string)
    ensures Tight(Collapse(t))
    decreases |t|
  {
    if |t| > 0 {
      if StartsBlank(t) {
        var tail := t[BlankEnd(t)..];
        CollapseTight(tail);
        CollapseAhead(tail);
        PairTight(Collapse(tail), Collapse(t));
      } else {
        CollapseTight(t[1..]);
        CollapseAhead(t[1..]);
        ConsTight(t[0], Collapse(t[1..]), Collapse(t));
      }
    }
  }

  /** In tight text a match at the front is exactly two newlines. */
  lemma TightBlank(t: string)
    requires Tight(t) && StartsBlank(t)
    ensures BlankEnd(t) == 2 && Tight(t[2..])
  {
    assert t[1..][1..] == t[2..];
    assert t[1] == '\n';
    assert BlankLen(t[1..]) == 1;
  }

  /** Text in which newlines already sit tight is left as it is. */
  lemma {:induction false} CollapseFixpoint(t: string)
    requires Tight(t)
    ensures Collapse(t) == t
    decreases |t|
  {
    if |t| > 0 {
      if StartsBlank(t) {
        TightBlank(t);
        CollapseFixpoint(t[2..]);
        assert t == "\n\n" + t[2..];
      } else {
        CollapseFixpoint(t[1..]);
        assert t == [t[0]] + t[1..];
      }
    }
  }

  lemma CollapseIdempotent(t: string)
    ensures Collapse(Collapse(t)) == Collapse(t)
  {
    CollapseTight(t);
    CollapseFixpoint(Collapse(t));
  }

  /** In `w + "\n" + b`, with `w` all whitespace and no newline ahead in
      `b`, the greedy match reaches exactly the newline after `w`. */
  lemma {:induction false} BlankLenIs(w: string, b: string)
    requires forall m :: 0 <= m < |w| ==> IsSpace(w[m])
    requires !NewlineAhead(b)
    ensures NewlineAhead(w + "\n" + b) && BlankLen(w + "\n" + b) == |w| + 1
    decreases |w|
  {
    var s := w + "\n" + b;
    if |w| == 0 {
      assert s == "\n" + b && s[1..] == b;
    } else {
      assert s[1..] == w[1..] + "\n" + b;
      BlankLenIs(w[1..], b);
    }
  }

  /** Every stretch from a newline through whitespace to a later newline
      becomes exactly one blank line, and the scan goes on after it. The
      stretch may sit anywhere: after text `a` that ends in a visible
      character, and spaces `v` that hold no newline, the match begins at
      the first newline and takes everything up to the last one. */
  lemma BlankStretch(a: string, v: string, w: string, b: string)
    requires |a| == 0 || !IsSpace(a[|a| - 1])
    requires forall m :: 0 <= m < |v| ==> IsSpace(v[m]) && v[m] != '\n'
    requires forall m :: 0 <= m < |w| ==> IsSpace(w[m])
    requires !NewlineAhead(b)
    ensures Collapse(a + v + "\n" + w + "\n" + b) == Collapse(a) + v + "\n\n" + Collapse(b)
  {
    var stretch := "\n" + w + "\n" + b;
    var cb := Collapse(b);
    StretchSplit(a, v, w, b);
    CollapseAppend(a, v + stretch);
    CollapseSpaces(v, stretch);
    BlankStretchFront(w, b);
    Regroup(Collapse(a), v, "\n\n", cb);
  }

  /** A sequence identity with no counterpart in the program: it keeps the
      unfolding in the proofs that call it local. */
  lemma StretchSplit(a: string, v: string, w: string, b: string)
    ensures a + v + "\n" + w + "\n" + b == a + (v + ("\n" + w + "\n" + b))
  {
  }

  /** A sequence identity with no counterpart in the program: it keeps the
      unfolding in the proofs that call it local. */
  lemma Regroup(p: string, q: string, r: string, s: string)
    ensures p + (q + (r + s)) == p + q + r + s
  {
  }

  /** A stretch at the front of the text. */
  lemma BlankStretchFront(w: string, b: string)
    requires forall m :: 0 <= m < |w| ==> IsSpace(w[m])
    requires !NewlineAhead(b)
    ensures Collapse("\n" + w + "\n" + b) == "\n\n" + Collapse(b)
  {
    var rest := w + "\n" + b;
    var t := "\n" + rest;
    Assoc4("\n", w, "\n", b);
    DropHead('\n', rest, t);
    BlankAfterSpace(t, w, b);
    CollapseBlankStep(t);
  }

  /** Whitespace without a newline is copied as it is. */
  lemma {:induction false} CollapseSpaces(v: string, y: string)
    requires forall m :: 0 <= m < |v| ==> IsSpace(v[m]) && v[m] != '\n'
    ensures Collapse(v + y) == v + Collapse(y)
    decreases |v|
  {
    if |v| > 0 {
      var t := v + y;
      assert t[0] == v[0] && t[1..] == v[1..] + y;
      CollapseCopyStep(t);
      CollapseSpaces(v[1..], y);
      assert v == [v[0]] + v[1..];
    } else {
      assert v + y == y;
    }
  }

  /** Text that ends in a visible character keeps its newline lookahead,
      and how far the greedy `\s*\n` reaches, whatever follows it. */
  lemma {:induction false} AheadAppend(s: string, x: string)
    requires |s| > 0 && !IsSpace(s[|s| - 1])
    ensures NewlineAhead(s + x) == NewlineAhead(s)
    ensures NewlineAhead(s) ==> BlankLen(s + x) == BlankLen(s)
    decreases |s|
  {
    assert (s + x)[0] == s[0];
    if |s| > 1 {
      assert (s + x)[1..] == s[1..] + x;
      AheadAppend(s[1..], x);
    }
  }

  /** Collapsing distributes over a cut after a visible character: no
      match reaches across it. */
  lemma {:induction false} CollapseAppend(a: string, x: string)
    requires |a| == 0 || !IsSpace(a[|a| - 1])
    ensures Collapse(a + x) == Collapse(a) + Collapse(x)
    decreases |a|
  {
    if |a| == 0 {
      assert a + x == x;
    } else {
      var t := a + x;
      BlankAppend(a, x);
      var h := if StartsBlank(a) then BlankEnd(a) else 1;
      assert t[h..] == a[h..] + x;
      CollapseAppend(a[h..], x);
      CollapseHead(a, h);
      CollapseHead(t, h);
      var p := if StartsBlank(a) then "\n\n" else [a[0]];
      ShareHead(p, Collapse(a[h..]), Collapse(x), Collapse(a), Collapse(t));
    }
  }

  /** Text that ends in a visible character starts a match exactly when it
      does with anything appended, and the match ends at the same place. */
  lemma BlankAppend(a: string, x: string)
    requires |a| > 0 && !IsSpace(a[|a| - 1])
    ensures StartsBlank(a + x) <==> StartsBlank(a)
    ensures StartsBlank(a) ==> BlankEnd(a) < |a| && BlankEnd(a + x) == BlankEnd(a)
  {
    var t := a + x;
    assert t[0] == a[0];
    if a[0] == '\n' {
      assert t[1..] == a[1..] + x;
      AheadAppend(a[1..], x);
    }
  }

  /** One step of the scan: the blank line or the copied character, then
      the rest of the text after what the step consumed. */
  lemma CollapseHead(t: string, h: nat)
    requires |t| > 0 && h == (if StartsBlank(t) then BlankEnd(t) else 1)
    ensures h <= |t|
    ensures Collapse(t) == (if StartsBlank(t) then "\n\n" else [t[0]]) + Collapse(t[h..])
  {
  }

  /** A sequence identity with no counterpart in the program: it keeps the
      unfolding in the proofs that call it local. */
  lemma DropHead(c: char, s: string, t: string)
    requires t == [c] + s
    ensures |t| > 0 && t[0] == c && t[1..] == s
  {
  }

  /** A sequence identity with no counterpart in the program: it keeps the
      unfolding in the proofs that call it local. */
  lemma Assoc4(a: string, b: string, c: string, d: string)
    ensures a + (b + c + d) == a + b + c + d
  {
  }

  lemma BlankAfterSpace(t: string, w: string, b: string)
    requires forall m :: 0 <= m < |w| ==> IsSpace(w[m])
    requires !NewlineAhead(b)
    requires |t| > 0 && t[0] == '\n' && t[1..] == w + "\n" + b
    ensures StartsBlank(t) && BlankEnd(t) == |w| + 2 && t[BlankEnd(t)..] == b
  {
    BlankLenIs(w, b);
    assert t[|w| + 2..] == b;
  }

  lemma CollapseCopyStep(t: string)
    requires |t| > 0 && !StartsBlank(t)
    ensures Collapse(t) == [t[0]] + Collapse(t[1..])
  {
  }

  lemma CollapseBlankStep(t: string)
    requires StartsBlank(t)
    ensures Collapse(t) == "\n\n" + Collapse(t[BlankEnd(t)..])
  {
  }

  /** The non-whitespace characters of `s`, in order. */
  function Visible(s: string): seq<char>
    decreases |s|
  {
    if |s| == 0 then [] else (if IsSpace(s[0]) then [] else [s[0]]) + Visible(s[1..])
  }

  lemma {:induction false} VisibleAppend(a: string, b: string)
    ensures Visible(a + b) == Visible(a) + Visible(b)
    decreases |a|
  {
    if |a| > 0 {
      var h := if IsSpace(a[0]) then [] else [a[0]];
      assert (a + b)[0] == a[0] && (a + b)[1..] == a[1..] + b;
      assert Visible(a + b) == h + Visible(a[1..] + b);
      VisibleAppend(a[1..], b);
      assert Visible(a) == h + Visible(a[1..]);
    }
    else {
      assert a + b == b;
    }
  }

  lemma {:induction false} VisibleOfSpace(s: string)
    requires forall m :: 0 <= m < |s| ==> IsSpace(s[m])
    ensures Visible(s) == []
    decreases |s|
  {
    if |s| > 0 {
      VisibleOfSpace(s[1..]);
    }
  }

  /** Collapsing only touches whitespace: the other characters come through
      unchanged and in order. */
  lemma {:induction false} CollapseKeepsVisible(t: string)
    ensures Visible(Collapse(t)) == Visible(t)
    decreases |t|
  {
    if |t| > 0 {
      if StartsBlank(t) {
        var e := BlankEnd(t);
        var rest := Collapse(t[e..]);
        CollapseKeepsVisible(t[e..]);
        CollapseBlankStep(t);
        VisiblePair(rest, Collapse(t));
        DropSpacePrefix(t, e);
      } else {
        CollapseKeepsVisible(t[1..]);
        CollapseCopyStep(t);
        VisibleCons(t[0], Collapse(t[1..]), Collapse(t));
      }
    }
  }

  lemma VisiblePair(rest: string, r: string)
    requires r == "\n\n" + rest
    ensures Visible(r) == Visible(rest)
  {
    var m := "\n" + rest;
    VisibleCons('\n', rest, m);
    assert r == ['\n'] + m;
    VisibleCons('\n', m, r);
  }

  lemma VisibleCons(c: char, s: string, r: string)
    requires r == [c] + s
    ensures Visible(r) == (if IsSpace(c) then [] else [c]) + Visible(s)
  {
    assert r[1..] == s;
  }

  lemma DropSpacePrefix(t: string, k: nat)
    requires k <= |t| && forall m :: 0 <= m < k ==> IsSpace(t[m])
    ensures Visible(t) == Visible(t[k..])
  {
    assert t == t[..k] + t[k..];
    VisibleAppend(t[..k], t[k..]);
    VisibleOfSpace(t[..k]);
  }

  /** Three newlines in a row start at `i`. */
  predicate TripleAt(s: string, i: nat) {
    i + 2 < |s| && s[i] == '\n' && s[i + 1] == '\n' && s[i + 2] == '\n'
  }

  /** No three newlines in a row. */
  predicate NoTriple(s: string) {
    forall i: nat :: i < |s| ==> !TripleAt(s, i)
  }

  lemma {:induction false} TightNoTriple(s: string)
    requires Tight(s)
    ensures NoTriple(s)
    decreases |s|
  {
    if |s| > 0 {
      TightNoTriple(s[1..]);
      forall i: nat | 1 <= i
        ensures !TripleAt(s, i)
      {
        assert !TripleAt(s[1..], i - 1);
      }
      if |s| >= 3 && s[0] == '\n' && s[1] == '\n' {
        assert s[1..][1..] == s[2..];
      }
    }
  }

  /** The final cleanup in `write_mail`: case-sensitive span removal, trim,
      blank-line collapsing. */
  function CleanupMail(content: string): (r: string)
    ensures |r| <= |content|
    ensures NoEdgeSpace(r)
    ensures Tight(r) && NoTriple(r)
  {
    var r := Collapse(Strip(RemoveSpans(content, false)));
    CollapseTight(Strip(RemoveSpans(content, false)));
    TightNoTriple(r);
    r
  }

  // ---------------------------------------------------------------------
  // normalize_email: strip, then re.sub(r"\n{3,}", "\n\n", t)

  /** The number of newlines at the start of `s`. */
  function Lead(s: string): (n: nat)
    decreases |s|
    ensures n <= |s|
    ensures forall m :: 0 <= m < n ==> s[m] == '\n'
    ensures n < |s| ==> s[n] != '\n'
  {
    if |s| > 0 && s[0] == '\n' then 1 + Lead(s[1..]) else 0
  }

  function Min2(n: nat): nat {
    if n < 2 then n else 2
  }

  /** `re.sub(r"\n{3,}", "\n\n", t)`: a run of three or more newlines is
      replaced, in full, by two; everything else is copied. */
  function Squeeze(t: string): (r: string)
    decreases |t|
    ensures |r| <= |t|
    ensures |t| > 0 ==> |r| > 0 && r[0] == t[0] && r[|r| - 1] == t[|t| - 1]
  {
    if |t| == 0 then ""
    else if Lead(t) >= 3 then
      var tail := t[Lead(t)..];
      var rest := Squeeze(tail);
      assert |rest| == 0 ==> t[|t| - 1] == '\n';
      assert |rest| > 0 ==> rest[|rest| - 1] == tail[|tail| - 1] == t[|t| - 1];
      "\n\n" + rest
    else
      var rest := Squeeze(t[1..]);
      assert |rest| > 0 ==> rest[|rest| - 1] == t[1..][|t| - 2] == t[|t| - 1];
      [t[0]] + rest
  }

  /** The result starts with as many newlines as the input, but at most two. */
  lemma {:induction false} SqueezeLead(t: string)
    ensures Lead(Squeeze(t)) == Min2(Lead(t))
    decreases |t|
  {
    if |t| > 0 {
      var k := Lead(t);
      if k >= 3 {
        var rest := Squeeze(t[k..]);
        SqueezeLead(t[k..]);
        PairLead(rest, Squeeze(t));
      } else {
        var rest := Squeeze(t[1..]);
        SqueezeLead(t[1..]);
        LeadCons(t[0], rest, Squeeze(t));
      }
    }
  }

  /** The result never holds three newlines in a row. */
  lemma {:induction false} SqueezeNoTriple(t: string)
    ensures NoTriple(Squeeze(t))
    decreases |t|
  {
    if |t| > 0 {
      var k := Lead(t);
      if k >= 3 {
        var rest := Squeeze(t[k..]);
        SqueezeLead(t[k..]);
        SqueezeNoTriple(t[k..]);
        PairNoTriple(rest, Squeeze(t));
      } else {
        var rest := Squeeze(t[1..]);
        SqueezeLead(t);
        SqueezeNoTriple(t[1..]);
        NoTripleCons(t[0], rest, Squeeze(t));
      }
    }
  }

  lemma PairNoTriple(rest: string, r: string)
    requires Lead(rest) == 0 && NoTriple(rest) && r == "\n\n" + rest
    ensures NoTriple(r)
  {
    var m := "\n" + rest;
    LeadCons('\n', rest, m);
    NoTripleCons('\n', rest, m);
    assert r == ['\n'] + m;
    LeadCons('\n', m, r);
    NoTripleCons('\n', m, r);
  }

  lemma PairLead(rest: string, r: string)
    requires Lead(rest) == 0 && r == "\n\n" + rest
    ensures Lead(r) == 2
  {
    LeadCons('\n', rest, "\n" + rest);
    assert r == ['\n'] + ("\n" + rest);
    LeadCons('\n', "\n" + rest, r);
  }

  lemma NoTripleCons(c: char, s: string, r: string)
    requires NoTriple(s) && r == [c] + s && Lead(r) < 3
    ensures NoTriple(r)
  {
    forall i: nat | 1 <= i
      ensures !TripleAt(r, i)
    {
      assert !TripleAt(s, i - 1);
    }
    assert !TripleAt(r, 0);
  }

  lemma LeadCons(c: char, s: string, r: string)
    requires r == [c] + s
    ensures Lead(r) == if c == '\n' then 1 + Lead(s) else 0
  {
    assert r[1..] == s;
  }

  /** Without three newlines in a row there is nothing to replace. */
  lemma {:induction false} SqueezeFixpoint(t: string)
    requires NoTriple(t)
    ensures Squeeze(t) == t
    decreases |t|
  {
    if |t| > 0 {
      LeadBelowThree(t);
      NoTripleTail(t);
      SqueezeFixpoint(t[1..]);
      assert t == [t[0]] + t[1..];
    }
  }

  lemma LeadBelowThree(t: string)
    requires NoTriple(t)
    ensures Lead(t) < 3
  {
    assert !TripleAt(t, 0);
  }

  lemma NoTripleTail(t: string)
    requires |t| > 0 && NoTriple(t)
    ensures NoTriple(t[1..])
  {
    forall i: nat
      ensures !TripleAt(t[1..], i)
    {
      assert !TripleAt(t, i + 1);
    }
  }

  /** `n` newlines. */
  function Newlines(n: nat): (s: string)
    ensures |s| == n && forall m :: 0 <= m < n ==> s[m] == '\n'
  {
    seq(n, _ => '\n')
  }

  /** A maximal run of three or more newlines, anywhere in the text,
      becomes exactly two: it follows text `a` that does not end in a
      newline, and is ended by the end of the text or another character. */
  lemma SqueezeRun(a: string, n: nat, b: string)
    requires |a| == 0 || a[|a| - 1] != '\n'
    requires n >= 3
    requires |b| == 0 || b[0] != '\n'
    ensures Squeeze(a + Newlines(n) + b) == Squeeze(a) + "\n\n" + Squeeze(b)
  {
    Assoc3(a, Newlines(n), b);
    Assoc3(Squeeze(a), "\n\n", Squeeze(b));
    SqueezeAppend(a, Newlines(n) + b);
    SqueezeRunFront(n, b);
  }

  /** A single newline, or two in a row, anywhere in the text passes
      through unchanged. */
  lemma SqueezeShortRun(a: string, b: string)
    requires |a| == 0 || a[|a| - 1] != '\n'
    requires |b| == 0 || b[0] != '\n'
    ensures Squeeze(a + "\n" + b) == Squeeze(a) + "\n" + Squeeze(b)
    ensures Squeeze(a + "\n\n" + b) == Squeeze(a) + "\n\n" + Squeeze(b)
  {
    Assoc3(a, "\n", b);
    Assoc3(a, "\n\n", b);
    Assoc3(Squeeze(a), "\n", Squeeze(b));
    Assoc3(Squeeze(a), "\n\n", Squeeze(b));
    SqueezeAppend(a, "\n" + b);
    SqueezeAppend(a, "\n\n" + b);
    SqueezeShortRunFront(b);
  }

  /** A run at the front of the text. */
  lemma SqueezeRunFront(n: nat, b: string)
    requires n >= 3
    requires |b| == 0 || b[0] != '\n'
    ensures Squeeze(Newlines(n) + b) == "\n\n" + Squeeze(b)
  {
    var t := Newlines(n) + b;
    LeadOfRun(n, b);
    assert t[n..] == b;
  }

  /** A short run at the front of the text. */
  lemma SqueezeShortRunFront(b: string)
    requires |b| == 0 || b[0] != '\n'
    ensures Squeeze("\n" + b) == "\n" + Squeeze(b)
    ensures Squeeze("\n\n" + b) == "\n\n" + Squeeze(b)
  {
    var u := "\n" + b;
    var t := "\n" + u;
    LeadCons('\n', b, u);
    LeadCons('\n', u, t);
    DropHead('\n', b, u);
    SqueezeCopyStep(u);
    DropHead('\n', u, t);
    SqueezeCopyStep(t);
    PairPrefix(b, t);
    PairPrefix(Squeeze(b), "\n" + Squeeze(u));
  }

  /** Text that does not end in a newline keeps its count of leading
      newlines whatever follows it. */
  lemma {:induction false} LeadAppend(a: string, x: string)
    requires |a| > 0 && a[|a| - 1] != '\n'
    ensures Lead(a + x) == Lead(a)
    decreases |a|
  {
    assert (a + x)[0] == a[0];
    if |a| > 1 {
      assert (a + x)[1..] == a[1..] + x;
      LeadAppend(a[1..], x);
    }
  }

  /** Squeezing distributes over a cut after a character other than a
      newline: no run reaches across it. */
  lemma {:induction false} SqueezeAppend(a: string, x: string)
    requires |a| == 0 || a[|a| - 1] != '\n'
    ensures Squeeze(a + x) == Squeeze(a) + Squeeze(x)
    decreases |a|
  {
    if |a| == 0 {
      assert a + x == x;
    } else {
      var t := a + x;
      LeadAppend(a, x);
      var k := Lead(a);
      var h := if k >= 3 then k else 1;
      assert t[h..] == a[h..] + x;
      SqueezeAppend(a[h..], x);
      SqueezeHead(a, h);
      SqueezeHead(t, h);
      var p := if k >= 3 then "\n\n" else [a[0]];
      ShareHead(p, Squeeze(a[h..]), Squeeze(x), Squeeze(a), Squeeze(t));
    }
  }

  /** One step of the scan: the replacement or the copied character, then
      the rest of the text after what the step consumed. */
  lemma SqueezeHead(t: string, h: nat)
    requires |t| > 0 && h == (if Lead(t) >= 3 then Lead(t) else 1)
    ensures h <= |t|
    ensures Squeeze(t) == (if Lead(t) >= 3 then "\n\n" else [t[0]]) + Squeeze(t[h..])
  {
  }

  /** A sequence identity with no counterpart in the program: it keeps the
      unfolding in the proofs that call it local. */
  lemma ShareHead(p: string, r: string, y: string, ra: string, rt: string)
    requires ra == p + r && rt == p + (r + y)
    ensures rt == ra + y
  {
  }

  /** A sequence identity with no counterpart in the program: it keeps the
      unfolding in the proofs that call it local. */
  lemma Assoc3(a: string, b: string, c: string)
    ensures a + b + c == a + (b + c)
  {
  }

  /** A sequence identity with no counterpart in the program: it keeps the
      unfolding in the proofs that call it local. */
  lemma PairPrefix(s: string, t: string)
    requires t == "\n" + ("\n" + s)
    ensures t == "\n\n" + s
  {
  }

  lemma SqueezeCopyStep(t: string)
    requires |t| > 0 && Lead(t) < 3
    ensures Squeeze(t) == [t[0]] + Squeeze(t[1..])
  {
  }

  lemma {:induction false} LeadOfRun(n: nat, b: string)
    requires |b| == 0 || b[0] != '\n'
    ensures Lead(Newlines(n) + b) == n
    decreases n
  {
    if n > 0 {
      assert (Newlines(n) + b)[1..] == Newlines(n - 1) + b;
      LeadOfRun(n - 1, b);
    }
  }

  /** The characters of `s` other than newlines, in order. */
  function NonNewline(s: string): seq<char>
    decreases |s|
  {
    if |s| == 0 then [] else (if s[0] == '\n' then [] else [s[0]]) + NonNewline(s[1..])
  }

  lemma {:induction false} NonNewlineAppend(a: string, b: string)
    ensures NonNewline(a + b) == NonNewline(a) + NonNewline(b)
    decreases |a|
  {
    if |a| > 0 {
      var h := if a[0] == '\n' then [] else [a[0]];
      assert (a + b)[0] == a[0] && (a + b)[1..] == a[1..] + b;
      assert NonNewline(a + b) == h + NonNewline(a[1..] + b);
      NonNewlineAppend(a[1..], b);
      assert NonNewline(a) == h + NonNewline(a[1..]);
    }
    else {
      assert a + b == b;
    }
  }

  lemma {:induction false} NonNewlineOfNewlines(s: string)
    requires forall m :: 0 <= m < |s| ==> s[m] == '\n'
    ensures NonNewline(s) == []
    decreases |s|
  {
    if |s| > 0 {
      NonNewlineOfNewlines(s[1..]);
    }
  }

  lemma DropNewlinePrefix(t: string, k: nat)
    requires k <= |t| && forall m :: 0 <= m < k ==> t[m] == '\n'
    ensures NonNewline(t) == NonNewline(t[k..])
  {
    assert t == t[..k] + t[k..];
    NonNewlineAppend(t[..k], t[k..]);
    NonNewlineOfNewlines(t[..k]);
  }

  /** Squeezing changes newlines only: every other character, whitespace
      included, comes through unchanged and in order. */
  lemma {:induction false} SqueezeKeepsOthers(t: string)
    ensures NonNewline(Squeeze(t)) == NonNewline(t)
    decreases |t|
  {
    if |t| > 0 {
      if Lead(t) >= 3 {
        var k := Lead(t);
        var rest := Squeeze(t[k..]);
        SqueezeKeepsOthers(t[k..]);
        NonNewlineAppend("\n\n", rest);
        NonNewlineOfNewlines("\n\n");
        DropNewlinePrefix(t, k);
      } else {
        SqueezeKeepsOthers(t[1..]);
        assert ([t[0]] + Squeeze(t[1..]))[1..] == Squeeze(t[1..]);
      }
    }
  }

  /** `normalize_email`: trim, then squeeze newline runs. */
  function NormalizeEmail(text: string): (r: string)
    ensures |r| <= |text|
    ensures NoEdgeSpace(r)
    ensures NoTriple(r)
  {
    SqueezeNoTriple(Strip(text));
    Squeeze(Strip(text))
  }

  lemma NormalizeEmailIdempotent(text: string)
    ensures NormalizeEmail(NormalizeEmail(text)) == NormalizeEmail(text)
  {
    var r := NormalizeEmail(text);
    StripFixpoint(r);
    SqueezeFixpoint(r);
  }

  /** The application normalises the cleaned e-mail once more; that step
      never changes it. */
  lemma NormalizeAfterCleanup(content: string)
    ensures NormalizeEmail(CleanupMail(content)) == CleanupMail(content)
  {
    var r := CleanupMail(content);
    StripFixpoint(r);
    SqueezeFixpoint(r);
  }
}

=== FILE: rendering.dfy ===
/** Rendering of one parsed job record: the `job_text` block built in
    `Chain.write_mail` and the skills line shown next to each job. A record is
    expected to be a JSON object; missing members fall back to defaults, and
    `", ".join` fails on anything that does not iterate to strings. */
module Rendering {
  import opened Wrappers
  import opened Text
  import opened Json

  /** Why rendering raised: `job.get` on a value that is not a dict, `join`
      on a value that is not iterable, or `join` meeting an item at `index`
      that is not a string. */
  datatype RenderError = NotADict | NotIterable | NotAString(index: nat)

  const SkillSep: string := ", "
  const NotSpecified: string := "Not specified"

  /** What `iter(v)` yields: the one-character strings of a string, the
      items of a list, the keys of a dict; other values do not iterate. */
  function Iterate(v: Value): (r: Option<seq<Value>>)
    ensures r.None? <==> !(v.Str? || v.Array? || v.Object?)
    ensures v.Str? ==> r.Some? && |r.value| == |v.s| && forall i :: 0 <= i < |v.s| ==> r.value[i] == Str([v.s[i]])
    ensures v.Array? ==> r == Some(v.items)
    ensures v.Object? ==> r.Some? && |r.value| == |Keys(v.fields)|
                          && forall i :: 0 <= i < |r.value| ==> r.value[i] == Str(Keys(v.fields)[i])
  {
    match v
    case Str(s) => Some(seq(|s|, i requires 0 <= i < |s| => Str([s[i]])))
    case Array(items) => Some(items)
    case Object(fields) =>
      var ks := Keys(fields);
      Some(seq(|ks|, i requires 0 <= i < |ks| => Str(ks[i])))
    case _ => None
  }

  predicate AllStrings(items: seq<Value>) {
    forall i :: 0 <= i < |items| ==> items[i].Str?
  }

  /** The texts of a list of strings. */
  function Texts(items: seq<Value>): (r: seq<string>)
    requires AllStrings(items)
    ensures |r| == |items| && forall i :: 0 <= i < |items| ==> items[i] == Str(r[i])
  {
    seq(|items|, i requires 0 <= i < |items| => items[i].s)
  }

  /** The index of the first item that is not a string. */
  function FirstNonString(items: seq<Value>): (r: nat)
    requires !AllStrings(items)
    ensures r < |items| && !items[r].Str?
    ensures forall i :: 0 <= i < r ==> items[i].Str?
  {
    if !items[0].Str? then 0
    else
      assert !AllStrings(items[1..]) by {
        var j :| 0 <= j < |items| && !items[j].Str?;
        assert items[1..][j - 1] == items[j];
      }
      1 + FirstNonString(items[1..])
  }

  /** `sep.join(v)`. */
  function JoinValue(v: Value, sep: string): (r: Result<string, RenderError>)
    ensures r == Failure(NotIterable) <==> Iterate(v).None?
    ensures r.Success? <==> Iterate(v).Some? && AllStrings(Iterate(v).value)
    ensures r.Success? ==> r.value == Join(Texts(Iterate(v).value), sep)
    ensures r.Failure? && Iterate(v).Some? ==>
              exists i :: 0 <= i < |Iterate(v).value| && r.error == NotAString(i)
                          && !Iterate(v).value[i].Str?
                          && forall j :: 0 <= j < i ==> Iterate(v).value[j].Str?
  {
    match Iterate(v)
    case None => Failure(NotIterable)
    case Some(items) =>
      if AllStrings(items) then Success(Join(Texts(items), sep))
      else Failure(NotAString(FirstNonString(items)))
  }

  /** `f"{v}"` for the values whose display is fixed: strings as they are,
      `None`, `True` and `False` by name. Numbers, lists and dicts are shown
      by `show`, which stands for Python's `str()` on them. */
  function Display(v: Value, show: Value -> string): (r: string)
    ensures v.Str? ==> r == v.s
    ensures v.Null? ==> r == "None"
    ensures v.Bool? ==> r == (if v.b then "True" else "False")
  {
    match v
    case Str(s) => s
    case Null => "None"
    case Bool(b) => if b then "True" else "False"
    case _ => show(v)
  }

  /** `f"{job.get(key, '')}"`: the display of the member, or the empty
      string when the key is missing. A member present with value `null`
      shows as `None`. */
  function FieldText(fields: seq<(string, Value)>, key: string, show: Value -> string): (r: string)
    ensures Get(fields, key).None? ==> r == ""
    ensures Get(fields, key).Some? ==> r == Display(Get(fields, key).value, show)
  {
    match Get(fields, key)
    case None => ""
    case Some(v) => Display(v, show)
  }

  /** `', '.join(job.get('skills', []))`: a missing list joins to the empty string. */
  function SkillsText(fields: seq<(string, Value)>): (r: Result<string, RenderError>)
    ensures Get(fields, "skills").None? ==> r == Success("")
    ensures Get(fields, "skills").Some? ==> r == JoinValue(Get(fields, "skills").value, SkillSep)
  {
    match Get(fields, "skills")
    case None => Success("")
    case Some(v) => JoinValue(v, SkillSep)
  }

  const RoleLabel: string := "Role: "
  const ExperienceLabel: string := "Experience: "
  const SkillsLabel: string := "Skills: "
  const DescriptionLabel: string := "Description: "

  /** The four labelled lines between a leading and a trailing newline. */
  function Block(role: string, experience: string, skills: string, description: string): (r: string)
    ensures |r| == |RoleLabel| + |role| + |ExperienceLabel| + |experience| + |SkillsLabel| + |skills|
                   + |DescriptionLabel| + |description| + 5
    ensures r[0] == '\n' && r[|r| - 1] == '\n'
  {
    "\n" + RoleLabel + role + "\n" + ExperienceLabel + experience + "\n" + SkillsLabel + skills
    + "\n" + DescriptionLabel + description + "\n"
  }

  /** The `job_text` block for one job. */
  function JobText(job: Value, show: Value -> string): (r: Result<string, RenderError>)
    ensures !job.Object? ==> r == Failure(NotADict)
    ensures job.Object? ==> (r.Success? <==> SkillsText(job.fields).Success?)
    ensures job.Object? && r.Failure? ==> r.error == SkillsText(job.fields).error
    ensures r.Success? ==> r.value == Block(FieldText(job.fields, "role", show),
                                           FieldText(job.fields, "experience", show),
                                           SkillsText(job.fields).value,
                                           FieldText(job.fields, "description", show))
  {
    match job
    case Object(fields) =>
      (match SkillsText(fields)
       case Failure(e) => Failure(e)
       case Success(skills) =>
         Success(Block(FieldText(fields, "role", show), FieldText(fields, "experience", show),
                       skills, FieldText(fields, "description", show))))
    case _ => Failure(NotADict)
  }

  /** The block's lines, split at newlines, are the four labelled fields
      between two empty lines, whenever the fields hold no newline. */
  lemma BlockLines(role: string, experience: string, skills: string, description: string)
    requires '\n' !in role && '\n' !in experience && '\n' !in skills && '\n' !in description
    ensures Split(Block(role, experience, skills, description), "\n")
            == ["", RoleLabel + role, ExperienceLabel + experience, SkillsLabel + skills,
                DescriptionLabel + description, ""]
  {
    LabelNoNewline(RoleLabel, role);
    LabelNoNewline(ExperienceLabel, experience);
    LabelNoNewline(SkillsLabel, skills);
    LabelNoNewline(DescriptionLabel, description);
    JoinFramed(RoleLabel, role, ExperienceLabel, experience, SkillsLabel, skills,
               DescriptionLabel, description, "\n");
    SplitJoin(["", RoleLabel + role, ExperienceLabel + experience, SkillsLabel + skills,
               DescriptionLabel + description, ""], "\n");
  }

  /** Joining four labelled lines between two empty ones. */
  lemma JoinFramed(h1: string, v1: string, h2: string, v2: string, h3: string, v3: string,
                   h4: string, v4: string, sep: string)
    ensures Join(["", h1 + v1, h2 + v2, h3 + v3, h4 + v4, ""], sep)
            == sep + h1 + v1 + sep + h2 + v2 + sep + h3 + v3 + sep + h4 + v4 + sep
  {
    var l1 := [""] + [h1 + v1];
    var l2 := l1 + [h2 + v2];
    var l3 := l2 + [h3 + v3];
    var l4 := l3 + [h4 + v4];
    assert "" + sep == sep;
    SnocLine([""], h1, v1, sep, "");
    SnocLine(l1, h2, v2, sep, "" + sep + h1 + v1);
    SnocLine(l2, h3, v3, sep, "" + sep + h1 + v1 + sep + h2 + v2);
    SnocLine(l3, h4, v4, sep, "" + sep + h1 + v1 + sep + h2 + v2 + sep + h3 + v3);
    JoinSnoc(l4, "", sep);
    assert l4 + [""] == ["", h1 + v1, h2 + v2, h3 + v3, h4 + v4, ""];
  }

  /** Appending the line `h + v` to a join whose text is `acc`. */
  lemma SnocLine(xs: seq<string>, h: string, v: string, sep: string, acc: string)
    requires |xs| > 0 && Join(xs, sep) == acc
    ensures Join(xs + [h + v], sep) == acc + sep + h + v
  {
    JoinSnoc(xs, h + v, sep);
    assert acc + sep + (h + v) == acc + sep + h + v;
  }

  lemma LabelNoNewline(head: string, x: string)
    requires '\n' !in head && '\n' !in x
    ensures '\n' !in head + x
  {
  }

  /** A list of strings as parsed values. */
  function Items(skills: seq<string>): (r: seq<Value>)
    ensures |r| == |skills| && AllStrings(r) && Texts(r) == skills
  {
    var r := seq(|skills|, i requires 0 <= i < |skills| => Str(skills[i]));
    assert Texts(r) == skills;
    r
  }

  /** An empty record renders every field empty. */
  lemma EmptyRecord(show: Value -> string)
    ensures JobText(Object([]), show) == Success(Block("", "", "", ""))
  {
  }

  /** A skills list of strings without commas is recovered, in order, by
      splitting the joined text at `", "`. */
  lemma SkillsRecovered(fields: seq<(string, Value)>, skills: seq<string>)
    requires |skills| > 0 && forall i :: 0 <= i < |skills| ==> ',' !in skills[i]
    requires Get(fields, "skills") == Some(Array(Items(skills)))
    ensures SkillsText(fields).Success?
    ensures Split(SkillsText(fields).value, SkillSep) == skills
  {
    SplitJoin(skills, SkillSep);
  }

  /** A string given where the list of skills belongs is joined character
      by character. */
  lemma StringSkillsSpelledOut(fields: seq<(string, Value)>)
    requires Get(fields, "skills") == Some(Str("Go"))
    ensures SkillsText(fields) == Success("G, o")
  {
    var items := Iterate(Str("Go")).value;
    assert items == [Str("G"), Str("o")];
    assert Texts(items) == ["G", "o"];
    assert AllStrings(items);
    assert Join(["G", "o"], SkillSep) == "G" + SkillSep + "o" == "G, o";
    assert SkillsText(fields) == JoinValue(Str("Go"), SkillSep);
  }

  /** The skills line shown for a job: `Not specified` when the skills are
      missing or empty (falsy), otherwise their `", "`-join. */
  function SkillsDisplay(job: Value): (r: Result<string, RenderError>)
    ensures !job.Object? ==> r == Failure(NotADict)
    ensures job.Object? && Get(job.fields, "skills").None? ==> r == Success(NotSpecified)
    ensures job.Object? && Get(job.fields, "skills").Some? ==>
              r == if Truthy(Get(job.fields, "skills").value)
                   then JoinValue(Get(job.fields, "skills").value, SkillSep)
                   else Success(NotSpecified)
  {
    match job
    case Object(fields) =>
      var skills := match Get(fields, "skills") case None => Array([]) case Some(v) => v;
      if Truthy(skills) then JoinValue(skills, SkillSep) else Success(NotSpecified)
    case _ => Failure(NotADict)
  }

  /** For a job record, the display and the block agree on the skills
      whenever they are present and truthy; where the block shows an empty
      join the display says `Not specified`. */
  lemma SkillsDisplayMatchesBlock(job: Value)
    requires job.Object?
    ensures var skills := Get(job.fields, "skills");
            && (skills.Some? && Truthy(skills.value) ==> SkillsDisplay(job) == SkillsText(job.fields))
            && (skills.None? ==> SkillsDisplay(job) == Success(NotSpecified) && SkillsText(job.fields) == Success(""))
  {
  }

  /** A non-empty list of strings is displayed as their join; an empty list
      as `Not specified`. */
  lemma SkillsDisplayOfList(job: Value, skills: seq<string>)
    requires job.Object?
    requires Get(job.fields, "skills") == Some(Array(Items(skills)))
    ensures |skills| == 0 ==> SkillsDisplay(job) == Success(NotSpecified)
    ensures |skills| > 0 ==> SkillsDisplay(job) == Success(Join(skills, SkillSep))
  {
    var v := Array(Items(skills));
    SkillsDisplayOfValue(job, v);
    if |skills| > 0 {
      JoinItems(skills, SkillSep);
    } else {
      assert !Truthy(v);
    }
  }

  lemma SkillsDisplayOfValue(job: Value, v: Value)
    requires job.Object? && Get(job.fields, "skills") == Some(v)
    ensures SkillsDisplay(job) == if Truthy(v) then JoinValue(v, SkillSep) else Success(NotSpecified)
  {
  }

  /** `sep.join` of a list of strings is their join. */
  lemma JoinItems(skills: seq<string>, sep: string)
    ensures JoinValue(Array(Items(skills)), sep) == Success(Join(skills, sep))
  {
    assert Iterate(Array(Items(skills))) == Some(Items(skills));
  }
}

=== FILE: text.dfy ===
/** Character-level helpers shared by every sanitisation step: Python's
    whitespace class (restricted to ASCII), `str.strip()`, the last index of a
    character, and `str.join` together with its inverse split. */
module Text {
  import opened Wrappers

  /** The ASCII characters for which Python's `str.isspace()` holds. They are
      also exactly the ASCII characters matched by `\s` in a `str` pattern. */
  predicate IsSpace(c: char) {
    c == ' ' || c == '\t' || c == '\n' || c == '\r' || c == '\U{B}' || c == '\U{C}'
    || ('\U{1C}' <= c <= '\U{1F}')
  }

  predicate AllSpace(s: string) {
    forall i :: 0 <= i < |s| ==> IsSpace(s[i])
  }

  /** Neither the first nor the last character is whitespace. */
  predicate NoEdgeSpace(s: string) {
    |s| > 0 ==> !IsSpace(s[0]) && !IsSpace(s[|s| - 1])
  }

  /** The index of the first non-whitespace character at or after `i`, or
      `|s|`, given that everything before `i` is whitespace. */
  function SpanStart(s: string, i: nat): (a: nat)
    requires i <= |s|
    requires forall k :: 0 <= k < i ==> IsSpace(s[k])
    decreases |s| - i
    ensures i <= a <= |s|
    ensures forall k :: 0 <= k < a ==> IsSpace(s[k])
    ensures a < |s| ==> !IsSpace(s[a])
  {
    if i < |s| && IsSpace(s[i]) then SpanStart(s, i + 1) else i
  }

  /** One past the last non-whitespace character at or before `j - 1`, or 0,
      given that everything from `j` on is whitespace. */
  function SpanEnd(s: string, j: nat): (b: nat)
    requires j <= |s|
    requires forall k :: j <= k < |s| ==> IsSpace(s[k])
    decreases j
    ensures b <= j
    ensures forall k :: b <= k < |s| ==> IsSpace(s[k])
    ensures b > 0 ==> !IsSpace(s[b - 1])
  {
    if j > 0 && IsSpace(s[j - 1]) then SpanEnd(s, j - 1) else j
  }

  /** Python's `s.strip()`: the input is whitespace, then the result, then
      whitespace, and the result has no whitespace at either end. */
  function Strip(s: string): (r: string)
    ensures |r| <= |s|
    ensures NoEdgeSpace(r)
    ensures exists a :: 0 <= a <= |s| - |r| && r == s[a..a + |r|]
                        && AllSpace(s[..a]) && AllSpace(s[a + |r|..])
  {
    var a := SpanStart(s, 0);
    var b := SpanEnd(s, |s|);
    if b <= a then
      assert AllSpace(s[..|s|]);
      ""
    else
      assert AllSpace(s[..a]) && AllSpace(s[b..]);
      s[a..b]
  }

  /** The decomposition in `Strip`'s contract pins its result down: whatever
      lies between an all-whitespace prefix and an all-whitespace suffix, with
      no whitespace at its own ends, is what `Strip` returns. */
  lemma StripCharacterization(s: string, a: nat, b: nat)
    requires a <= b <= |s|
    requires AllSpace(s[..a]) && AllSpace(s[b..]) && NoEdgeSpace(s[a..b])
    ensures Strip(s) == s[a..b]
  {
    var a' := SpanStart(s, 0);
    var b' := SpanEnd(s, |s|);
    if a == b {
      forall k | 0 <= k < |s| ensures IsSpace(s[k]) {
        if k < a { assert s[k] == s[..a][k]; } else { assert s[k] == s[b..][k - b]; }
      }
      assert a' == |s|;
    } else {
      assert !IsSpace(s[a]) by { assert s[a] == s[a..b][0]; }
      assert !IsSpace(s[b - 1]) by { assert s[b - 1] == s[a..b][b - a - 1]; }
      assert forall k :: 0 <= k < a ==> s[k] == s[..a][k];
      assert forall k :: b <= k < |s| ==> s[k] == s[b..][k - b];
      assert a' == a;
      assert b' == b;
    }
  }

  /** Text already without edge whitespace is its own `strip()`. */
  lemma StripFixpoint(s: string)
    requires NoEdgeSpace(s)
    ensures Strip(s) == s
  {
    assert s[..0] == [] && s[|s|..] == [];
    assert s[0..|s|] == s;
    StripCharacterization(s, 0, |s|);
  }

  lemma StripIdempotent(s: string)
    ensures Strip(Strip(s)) == Strip(s)
  {
    StripFixpoint(Strip(s));
  }

  /** Stripping only removes characters. */
  lemma StripChars(s: string)
    ensures forall c :: c in Strip(s) ==> c in s
  {
    var r := Strip(s);
    var a := SpanStart(s, 0);
    var b := SpanEnd(s, |s|);
    if a < b {
      assert r == s[a..b];
      SliceChars(s, a, b);
    }
  }

  lemma SliceChars(s: string, a: nat, b: nat)
    requires a <= b <= |s|
    ensures forall c :: c in s[a..b] ==> c in s
  {
    forall c | c in s[a..b] ensures c in s {
      var i :| 0 <= i < b - a && s[a..b][i] == c;
      assert s[a + i] == c;
    }
  }

  /** Python's `s.rfind(c)`: the last index holding `c`, or -1. */
  function LastIndexOf(s: string, c: char): (r: int)
    decreases |s|
    ensures -1 <= r < |s|
    ensures r >= 0 ==> s[r] == c
    ensures forall k :: r < k < |s| ==> s[k] != c
  {
    if |s| == 0 then -1
    else if s[|s| - 1] == c then |s| - 1
    else LastIndexOf(s[..|s| - 1], c)
  }

  /** Python's `sep.join(xs)`. */
  function Join(xs: seq<string>, sep: string): string
    decreases |xs|
  {
    if |xs| == 0 then ""
    else if |xs| == 1 then xs[0]
    else xs[0] + sep + Join(xs[1..], sep)
  }

  /** A join starts with its first item and ends with its last; joining
      nothing gives the empty string. */
  lemma {:induction false} JoinEnds(xs: seq<string>, sep: string)
    decreases |xs|
    ensures |xs| == 0 ==> Join(xs, sep) == ""
    ensures |xs| > 0 ==> |xs[0]| <= |Join(xs, sep)| && Join(xs, sep)[..|xs[0]|] == xs[0]
    ensures |xs| > 0 ==> var r, last := Join(xs, sep), xs[|xs| - 1];
                         |last| <= |r| && r[|r| - |last|..] == last
  {
    if |xs| > 1 {
      var rest := Join(xs[1..], sep);
      JoinEnds(xs[1..], sep);
      var r := xs[0] + sep + rest;
      var last := xs[|xs| - 1];
      assert xs[1..][|xs| - 2] == last;
      assert r[|r| - |last|..] == rest[|rest| - |last|..];
    }
  }

  /** Joining one more item appends the separator and the item. */
  lemma {:induction false} JoinSnoc(xs: seq<string>, x: string, sep: string)
    requires |xs| > 0
    ensures Join(xs + [x], sep) == Join(xs, sep) + sep + x
    decreases |xs|
  {
    if |xs| == 1 {
      assert (xs + [x])[1..] == [x];
    } else {
      assert (xs + [x])[1..] == xs[1..] + [x];
      JoinSnoc(xs[1..], x, sep);
      var rest := Join(xs[1..], sep);
      assert xs[0] + sep + (rest + sep + x) == xs[0] + sep + rest + sep + x;
    }
  }

  /** `sep` occurs in `s` starting at index `k`. */
  predicate SubAt(s: string, k: nat, sep: string) {
    k + |sep| <= |s| && forall i :: 0 <= i < |sep| ==> s[k + i] == sep[i]
  }

  /** The first index at which `sep` occurs in `s`, if any. */
  function FindSub(s: string, sep: string): (r: Option<nat>)
    requires |sep| > 0
    decreases |s|
    ensures r.Some? ==> SubAt(s, r.value, sep)
    ensures r.Some? ==> forall k :: 0 <= k < r.value ==> !SubAt(s, k, sep)
    ensures r.None? ==> forall k: nat :: !SubAt(s, k, sep)
  {
    if |s| < |sep| then None
    else if SubAt(s, 0, sep) then Some(0)
    else
      var rest := FindSub(s[1..], sep);
      forall k: nat | 1 <= k
        ensures SubAt(s, k, sep) <==> SubAt(s[1..], k - 1, sep)
      {
        SubAtShift(s, k, sep);
      }
      if rest.None? then None else Some(rest.value + 1)
  }

  lemma SubAtShift(s: string, k: nat, sep: string)
    requires 1 <= k && 1 <= |s|
    ensures SubAt(s, k, sep) <==> SubAt(s[1..], k - 1, sep)
  {
    if k + |sep| <= |s| {
      assert forall i :: 0 <= i < |sep| ==> (s[1..][k - 1 + i] == sep[i] <==> s[k + i] == sep[i]);
    }
  }

  /** Python's `s.split(sep)`: the pieces between the occurrences of `sep`. */
  function Split(s: string, sep: string): seq<string>
    requires |sep| > 0
    decreases |s|
  {
    match FindSub(s, sep)
    case None => [s]
    case Some(i) => [s[..i]] + Split(s[i + |sep|..], sep)
  }

  /** A text without the separator's first character holds no separator. */
  lemma NoSubWithoutHead(x: string, sep: string)
    requires |sep| > 0 && sep[0] !in x
    ensures FindSub(x, sep).None?
  {
    assert forall k: nat :: !SubAt(x, k, sep);
  }

  /** In `x + sep + rest`, the first separator is the one right after `x`. */
  lemma FindSubAfterItem(x: string, sep: string, rest: string)
    requires |sep| > 0 && sep[0] !in x
    ensures FindSub(x + sep + rest, sep) == Some(|x|)
  {
    var s := x + sep + rest;
    assert SubAt(s, |x|, sep) by {
      assert forall i :: 0 <= i < |sep| ==> s[|x| + i] == sep[i];
    }
    forall k | 0 <= k < |x|
      ensures !SubAt(s, k, sep)
    {
      assert s[k + 0] == x[k];
    }
  }

  /** Joining is lossless when no item contains the separator's first
      character: splitting the joined text gives the items back. */
  lemma {:induction false} SplitJoin(xs: seq<string>, sep: string)
    requires |xs| > 0 && |sep| > 0
    requires forall i :: 0 <= i < |xs| ==> sep[0] !in xs[i]
    ensures Split(Join(xs, sep), sep) == xs
    decreases |xs|
  {
    var x := xs[0];
    if |xs| == 1 {
      NoSubWithoutHead(x, sep);
    } else {
      var rest := Join(xs[1..], sep);
      var s := x + sep + rest;
      FindSubAfterItem(x, sep, rest);
      assert s[..|x|] == x;
      assert s[|x| + |sep|..] == rest;
      assert Split(s, sep) == [x] + Split(rest, sep);
      SplitJoin(xs[1..], sep);
      assert xs == [x] + xs[1..];
    }
  }
}

=== FILE: think_tags.dfy ===
/** Removal of reasoning spans: Python's
    `re.sub(r"<think>[\s\S]*?</think>", "", text, flags)` with or without
    `re.IGNORECASE`. The substitution scans left to right; at a position
    holding `<think>` it removes everything up to and including the nearest
    `</think>` that starts after the opening tag, then resumes after it. An
    opening tag with no closing tag after it is not a match, and the scan
    moves on by one character. */
module ThinkTags {
  import opened Wrappers
  import opened Text

  const Open: string := "<think>"
  const Close: string := "</think>"

  /** ASCII lower-casing: the case folding the model applies under IGNORECASE. */
  function Lower(c: char): char {
    if 'A' <= c <= 'Z' then (c as int + 32) as char else c
  }

  predicate SameChar(a: char, b: char, ignoreCase: bool) {
    if ignoreCase then Lower(a) == Lower(b) else a == b
  }

  /** `tag` occurs in `s` at index `k`, up to case when `ignoreCase` holds. */
  predicate TagAt(s: string, k: nat, tag: string, ignoreCase: bool) {
    k + |tag| <= |s| && MatchFrom(s, k, tag, 0, ignoreCase)
  }

  /** Characters `i..` of `tag` match `s` from index `k + i` on. */
  predicate MatchFrom(s: string, k: nat, tag: string, i: nat, ignoreCase: bool)
    requires k + |tag| <= |s|
    decreases |tag| - i
  {
    i >= |tag| || (SameChar(s[k + i], tag[i], ignoreCase) && MatchFrom(s, k, tag, i + 1, ignoreCase))
  }

  lemma {:induction false} MatchFromChars(s: string, k: nat, tag: string, i: nat, ignoreCase: bool)
    requires k + |tag| <= |s|
    decreases |tag| - i
    ensures MatchFrom(s, k, tag, i, ignoreCase)
            <==> forall j :: i <= j < |tag| ==> SameChar(s[k + j], tag[j], ignoreCase)
  {
    if i < |tag| {
      MatchFromChars(s, k, tag, i + 1, ignoreCase);
    }
  }

  /** `TagAt` spelled out character by character. */
  lemma TagAtChars(s: string, k: nat, tag: string, ignoreCase: bool)
    ensures TagAt(s, k, tag, ignoreCase)
            <==> k + |tag| <= |s| && forall j :: 0 <= j < |tag| ==> SameChar(s[k + j], tag[j], ignoreCase)
  {
    if k + |tag| <= |s| {
      MatchFromChars(s, k, tag, 0, ignoreCase);
    }
  }

  /** The leftmost closing tag starting at or after `from`: the end of the
      lazy `[\s\S]*?` match. */
  function NearestClose(s: string, from: nat, ignoreCase: bool): (r: Option<nat>)
    decreases |s| - from
    ensures r.Some? ==> from <= r.value && TagAt(s, r.value, Close, ignoreCase)
  {
    if from + |Close| > |s| then None
    else if TagAt(s, from, Close, ignoreCase) then Some(from)
    else NearestClose(s, from + 1, ignoreCase)
  }

  /** The search finds the leftmost closing tag from `from` on, and finds
      nothing exactly when there is none. */
  lemma {:induction false} NearestCloseLeftmost(s: string, from: nat, ignoreCase: bool)
    decreases |s| - from
    ensures var r := NearestClose(s, from, ignoreCase);
            && (r.Some? ==> forall k: nat :: from <= k < r.value ==> !TagAt(s, k, Close, ignoreCase))
            && (r.None? ==> forall k: nat :: from <= k ==> !TagAt(s, k, Close, ignoreCase))
  {
    if from + |Close| <= |s| && !TagAt(s, from, Close, ignoreCase) {
      NearestCloseLeftmost(s, from + 1, ignoreCase);
    }
  }

  /** A closing tag at `c` with none between `from` and `c` is what the
      search returns. */
  lemma NearestCloseIs(s: string, from: nat, c: nat, ignoreCase: bool)
    requires from <= c && TagAt(s, c, Close, ignoreCase)
    requires forall k: nat :: from <= k < c ==> !TagAt(s, k, Close, ignoreCase)
    ensures NearestClose(s, from, ignoreCase) == Some(c)
  {
    NearestCloseLeftmost(s, from, ignoreCase);
  }

  /** A reasoning span starts at `p`: an opening tag there and a closing tag
      somewhere after it. */
  predicate SpanAt(s: string, p: nat, ignoreCase: bool) {
    TagAt(s, p, Open, ignoreCase) && NearestClose(s, p + |Open|, ignoreCase).Some?
  }

  /** The leftmost index from `from` on at which a reasoning span starts:
      where the regular-expression search finds its next match. */
  function FirstSpan(s: string, from: nat, ignoreCase: bool): (r: Option<nat>)
    decreases |s| - from
    ensures r.Some? ==> from <= r.value && SpanAt(s, r.value, ignoreCase)
  {
    if from + |Open| > |s| then None
    else if SpanAt(s, from, ignoreCase) then Some(from)
    else FirstSpan(s, from + 1, ignoreCase)
  }

  /** The search finds the leftmost span, and finds nothing exactly when no
      span starts from `from` on. */
  lemma {:induction false} FirstSpanLeftmost(s: string, from: nat, ignoreCase: bool)
    decreases |s| - from
    ensures var r := FirstSpan(s, from, ignoreCase);
            && (r.Some? ==> forall k: nat :: from <= k < r.value ==> !SpanAt(s, k, ignoreCase))
            && (r.None? ==> forall k: nat :: from <= k ==> !SpanAt(s, k, ignoreCase))
  {
    if from + |Open| <= |s| && !SpanAt(s, from, ignoreCase) {
      FirstSpanLeftmost(s, from + 1, ignoreCase);
    }
  }

  /** `re.sub(r"<think>[\s\S]*?</think>", "", s)`, case-insensitive when
      `ignoreCase` holds: the text before the first span is kept, the span is
      dropped, and the substitution continues on the text after it. The
      pattern has no anchors or look-behind, so searching on from the end of
      a match is searching the remaining text afresh. */
  function RemoveSpans(s: string, ignoreCase: bool): (r: string)
    decreases |s|
    ensures |r| <= |s|
  {
    match FirstMatch(s, ignoreCase)
    case None => s
    case Some((p, e)) => s[..p] + RemoveSpans(s[e..], ignoreCase)
  }

  /** The bounds of the first match: from its opening tag to the end of the
      nearest closing tag after it. */
  function FirstMatch(s: string, ignoreCase: bool): (r: Option<(nat, nat)>)
    ensures r.Some? ==> r.value.0 + |Open| + |Close| <= r.value.1 <= |s|
    ensures r.Some? ==> TagAt(s, r.value.1 - |Close|, Close, ignoreCase)
  {
    match FirstSpan(s, 0, ignoreCase)
    case None => None
    case Some(p) => Some((p, NearestClose(s, p + |Open|, ignoreCase).value + |Close|))
  }

  /** The first sanitisation step of job extraction: case-insensitive span
      removal followed by `strip()`. */
  function SanitizeRaw(s: string): (r: string)
    ensures |r| <= |s|
    ensures NoEdgeSpace(r)
  {
    Strip(RemoveSpans(s, true))
  }

  // ---------------------------------------------------------------------
  // Facts about the tags themselves

  /** Both tags begin with `<`, under either matching mode. */
  lemma TagStartsWithLt(s: string, k: nat, tag: string, ignoreCase: bool)
    requires tag == Open || tag == Close
    requires TagAt(s, k, tag, ignoreCase)
    ensures s[k] == '<'
  {
    TagAtChars(s, k, tag, ignoreCase);
    assert SameChar(s[k + 0], tag[0], ignoreCase);
  }

  /** `<` occurs in neither tag except at its first position, so a tag match
      never has `<` in its interior. */
  lemma NoLtInsideTag(s: string, k: nat, tag: string, ignoreCase: bool, d: nat)
    requires tag == Open || tag == Close
    requires TagAt(s, k, tag, ignoreCase) && 0 < d < |tag|
    ensures s[k + d] != '<'
  {
    TagAtChars(s, k, tag, ignoreCase);
    assert SameChar(s[k + d], tag[d], ignoreCase);
  }

  /** An opening tag and a closing tag never start at the same index or
      overlap: a closing tag at or after an opening tag starts past it. */
  lemma CloseNotInsideOpen(s: string, i: nat, k: nat, ignoreCase: bool)
    requires TagAt(s, i, Open, ignoreCase) && TagAt(s, k, Close, ignoreCase)
    requires i <= k
    ensures i + |Open| <= k
  {
    if k == i {
      TagAtChars(s, i, Open, ignoreCase);
      TagAtChars(s, k, Close, ignoreCase);
      assert false;
    } else if k < i + |Open| {
      TagStartsWithLt(s, k, Close, ignoreCase);
      NoLtInsideTag(s, i, Open, ignoreCase, k - i);
      assert false;
    }
  }

  /** A tag lying wholly inside the middle part of `a + m + b` is a tag of `m`. */
  lemma TagAtInside(a: string, m: string, b: string, j: nat, tag: string, ignoreCase: bool)
    requires j + |tag| <= |m|
    ensures TagAt(a + m + b, |a| + j, tag, ignoreCase) <==> TagAt(m, j, tag, ignoreCase)
  {
    var s := a + m + b;
    TagAtChars(s, |a| + j, tag, ignoreCase);
    TagAtChars(m, j, tag, ignoreCase);
    assert forall i :: 0 <= i < |tag| ==>
      (SameChar(s[|a| + j + i], tag[i], ignoreCase) <==> SameChar(m[j + i], tag[i], ignoreCase));
  }

  /** Tags seen from index `q + k` of `s` are the tags seen from `k` in `s[q..]`. */
  lemma TagAtShift(s: string, q: nat, k: nat, tag: string, ignoreCase: bool)
    requires q <= |s|
    ensures TagAt(s, q + k, tag, ignoreCase) <==> TagAt(s[q..], k, tag, ignoreCase)
  {
    TagAtChars(s, q + k, tag, ignoreCase);
    TagAtChars(s[q..], k, tag, ignoreCase);
    if q + k + |tag| <= |s| {
      assert forall i :: 0 <= i < |tag| ==>
        (SameChar(s[q + k + i], tag[i], ignoreCase) <==> SameChar(s[q..][k + i], tag[i], ignoreCase));
    }
  }

  /** Without `<` there is no tag at all. */
  lemma NoLtNoTag(s: string, tag: string, ignoreCase: bool)
    requires tag == Open || tag == Close
    requires '<' !in s
    ensures forall k: nat :: !TagAt(s, k, tag, ignoreCase)
  {
    forall k: nat | TagAt(s, k, tag, ignoreCase) ensures false {
      TagStartsWithLt(s, k, tag, ignoreCase);
    }
  }

  // ---------------------------------------------------------------------
  // Properties of span removal

  /** Text without an opening tag, or without a closing tag, comes back
      unchanged, and the extraction sanitiser then only trims it. */
  lemma NoTagUnchanged(s: string, ignoreCase: bool)
    requires (forall k: nat :: !TagAt(s, k, Open, ignoreCase))
          || (forall k: nat :: !TagAt(s, k, Close, ignoreCase))
    ensures RemoveSpans(s, ignoreCase) == s
    ensures ignoreCase ==> SanitizeRaw(s) == Strip(s)
  {
  }

  /** One span is removed: text before it without an opening tag is kept,
      the span runs from the opening tag `o` to the first closing tag `c`
      after it (`mid` holds none), and the substitution goes on after `c`.
      With `ignoreCase` the tags may be written in any case. */
  lemma SpanRemoved(pre: string, o: string, mid: string, c: string, post: string, ignoreCase: bool)
    requires |o| == |Open| && TagAt(o, 0, Open, ignoreCase)
    requires |c| == |Close| && TagAt(c, 0, Close, ignoreCase)
    requires forall k: nat :: !TagAt(pre, k, Open, ignoreCase)
    requires forall k: nat :: !TagAt(mid, k, Close, ignoreCase)
    ensures RemoveSpans(pre + o + mid + c + post, ignoreCase) == pre + RemoveSpans(post, ignoreCase)
  {
    var s := pre + o + mid + c + post;
    var p := |pre|;
    var e := |pre| + |o| + |mid|;
    SpanInContext(pre, o, mid, c, post, ignoreCase);
    RemoveFirstSpan(s, p, e, ignoreCase);
    assert s[..p] == pre;
    assert s[e + |Close|..] == post;
  }

  /** The tags of `pre + o + mid + c + post` as `SpanRemoved` needs them:
      `o` and `c` are tags in place, no opening tag starts inside `pre`, and
      no closing tag starts between `o` and `c`. */
  lemma SpanInContext(pre: string, o: string, mid: string, c: string, post: string, ignoreCase: bool)
    requires |o| == |Open| && TagAt(o, 0, Open, ignoreCase)
    requires |c| == |Close| && TagAt(c, 0, Close, ignoreCase)
    requires forall k: nat :: !TagAt(pre, k, Open, ignoreCase)
    requires forall k: nat :: !TagAt(mid, k, Close, ignoreCase)
    ensures var s := pre + o + mid + c + post;
            var p := |pre|;
            var e := |pre| + |o| + |mid|;
            && TagAt(s, p, Open, ignoreCase) && TagAt(s, e, Close, ignoreCase)
            && (forall k: nat :: k < p ==> !TagAt(s, k, Open, ignoreCase))
            && (forall k: nat :: p + |Open| <= k < e ==> !TagAt(s, k, Close, ignoreCase))
  {
    var s := pre + o + mid + c + post;
    var p := |pre|;
    var e := |pre| + |o| + |mid|;
    assert TagAt(s, p, Open, ignoreCase) by {
      TagAtInside(pre, o, mid + c + post, 0, Open, ignoreCase);
      assert pre + o + (mid + c + post) == s;
    }
    assert TagAt(s, e, Close, ignoreCase) by {
      TagAtInside(pre + o + mid, c, post, 0, Close, ignoreCase);
    }
    TagStartsWithLt(o, 0, Open, ignoreCase);
    TagStartsWithLt(c, 0, Close, ignoreCase);
    assert forall k: nat :: k < p ==> !TagAt(s, k, Open, ignoreCase) by {
      TagFreeMiddle([], pre, o + mid + c + post, Open, ignoreCase);
      assert [] + pre + (o + mid + c + post) == s;
    }
    assert forall k: nat :: p + |Open| <= k < e ==> !TagAt(s, k, Close, ignoreCase) by {
      TagFreeMiddle(pre + o, mid, c + post, Close, ignoreCase);
      assert pre + o + mid + (c + post) == s;
    }
  }

  /** An opening tag at `p` with none before it, and a closing tag at `e`
      with none between the two: the first span runs from `p` to the end of
      `e`, and removing spans keeps the text before `p` and goes on after it. */
  lemma RemoveFirstSpan(s: string, p: nat, e: nat, ignoreCase: bool)
    requires TagAt(s, p, Open, ignoreCase) && TagAt(s, e, Close, ignoreCase)
    requires p + |Open| <= e
    requires forall k: nat :: k < p ==> !TagAt(s, k, Open, ignoreCase)
    requires forall k: nat :: p + |Open| <= k < e ==> !TagAt(s, k, Close, ignoreCase)
    ensures FirstSpan(s, 0, ignoreCase) == Some(p)
    ensures NearestClose(s, p + |Open|, ignoreCase) == Some(e)
    ensures RemoveSpans(s, ignoreCase) == s[..p] + RemoveSpans(s[e + |Close|..], ignoreCase)
  {
    NearestCloseIs(s, p + |Open|, e, ignoreCase);
    FirstSpanIs(s, p, ignoreCase);
    RemoveSpansStep(s, p, e, ignoreCase);
  }

  /** A tag-free middle part `m` of `a + m + b` stays tag-free in context
      when `b` starts with `<`: no tag can start in `m` and reach into `b`. */
  lemma TagFreeMiddle(a: string, m: string, b: string, tag: string, ignoreCase: bool)
    requires tag == Open || tag == Close
    requires forall k: nat :: !TagAt(m, k, tag, ignoreCase)
    requires |b| > 0 && b[0] == '<'
    ensures forall k: nat :: |a| <= k < |a| + |m| ==> !TagAt(a + m + b, k, tag, ignoreCase)
  {
    var s := a + m + b;
    forall k: nat | |a| <= k < |a| + |m|
      ensures !TagAt(s, k, tag, ignoreCase)
    {
      if TagAt(s, k, tag, ignoreCase) {
        if k + |tag| <= |a| + |m| {
          TagAtInside(a, m, b, k - |a|, tag, ignoreCase);
        } else {
          assert s[|a| + |m|] == '<';
          NoLtInsideTag(s, k, tag, ignoreCase, |a| + |m| - k);
        }
      }
    }
  }

  /** A span at `p` with no opening tag before it is the first span. */
  lemma FirstSpanIs(s: string, p: nat, ignoreCase: bool)
    requires SpanAt(s, p, ignoreCase)
    requires forall k: nat :: k < p ==> !TagAt(s, k, Open, ignoreCase)
    ensures FirstSpan(s, 0, ignoreCase) == Some(p)
  {
    FirstSpanLeftmost(s, 0, ignoreCase);
  }

  /** Removing spans adds no character: every character of the result is
      one of the input's. */
  lemma {:induction false} RemoveSpansChars(s: string, ignoreCase: bool)
    decreases |s|
    ensures forall ch :: ch in RemoveSpans(s, ignoreCase) ==> ch in s
  {
    var m := FirstMatch(s, ignoreCase);
    if m.Some? {
      var p, e := m.value.0, m.value.1;
      var r := RemoveSpans(s[e..], ignoreCase);
      RemoveSpansChars(s[e..], ignoreCase);
      assert RemoveSpans(s, ignoreCase) == s[..p] + r;
      forall ch | ch in s[..p] + r ensures ch in s {
        if ch in s[..p] {
          var i :| 0 <= i < p && s[..p][i] == ch;
          assert s[i] == ch;
        } else {
          var i :| 0 <= i < |s[e..]| && s[e..][i] == ch;
          assert s[e + i] == ch;
        }
      }
    }
  }

  /** `t` is a suffix of `r`. */
  predicate IsSuffix(t: string, r: string) {
    |t| <= |r| && r[|r| - |t|..] == t
  }

  /** Everything from a `<` with no closing tag at or after it reaches the
      output unchanged. */
  lemma {:induction false} KeepsTail(s: string, i: nat, ignoreCase: bool)
    requires i < |s| && s[i] == '<'
    requires forall k: nat :: i <= k ==> !TagAt(s, k, Close, ignoreCase)
    ensures IsSuffix(s[i..], RemoveSpans(s, ignoreCase))
    decreases |s|, 1
  {
    match FirstMatch(s, ignoreCase)
    case None =>
      assert RemoveSpans(s, ignoreCase) == s;
    case Some((p, e)) =>
      KeepsTailPastSpan(s, i, p, e, ignoreCase);
  }

  /** The case of `KeepsTail` where a span is removed: the span ends before
      the `<`, and the rest of the text is handled afresh. */
  lemma {:induction false} KeepsTailPastSpan(s: string, i: nat, p: nat, e: nat, ignoreCase: bool)
    requires i < |s| && s[i] == '<'
    requires forall k: nat :: i <= k ==> !TagAt(s, k, Close, ignoreCase)
    requires FirstMatch(s, ignoreCase) == Some((p, e))
    ensures IsSuffix(s[i..], RemoveSpans(s, ignoreCase))
    decreases |s|, 0
  {
    SpanEndsBeforeLt(s, i, e, ignoreCase);
    NoCloseAfterShift(s, e, i, ignoreCase);
    KeepsTail(s[e..], i - e, ignoreCase);
    MatchStep(s, p, e, ignoreCase);
    SuffixThroughStep(s, p, e, i, RemoveSpans(s[e..], ignoreCase), RemoveSpans(s, ignoreCase));
  }

  /** A closing tag ending at `e` ends at or before any `<` that no closing
      tag follows. */
  lemma SpanEndsBeforeLt(s: string, i: nat, e: nat, ignoreCase: bool)
    requires i < |s| && s[i] == '<'
    requires forall k: nat :: i <= k ==> !TagAt(s, k, Close, ignoreCase)
    requires e >= |Close| && TagAt(s, e - |Close|, Close, ignoreCase)
    ensures e <= i
  {
    var c := e - |Close|;
    if i < e {
      NoLtInsideTag(s, c, Close, ignoreCase, i - c);
    }
  }

  lemma NoCloseAfterShift(s: string, e: nat, i: nat, ignoreCase: bool)
    requires e <= i <= |s|
    requires forall k: nat :: i <= k ==> !TagAt(s, k, Close, ignoreCase)
    ensures forall k: nat :: i - e <= k ==> !TagAt(s[e..], k, Close, ignoreCase)
  {
    forall k: nat | i - e <= k
      ensures !TagAt(s[e..], k, Close, ignoreCase)
    {
      TagAtShift(s, e, k, Close, ignoreCase);
    }
  }

  /** One step of the substitution, as a fact about a text in general. */
  lemma RemoveSpansStep(s: string, p: nat, c: nat, ignoreCase: bool)
    requires FirstSpan(s, 0, ignoreCase) == Some(p)
    requires NearestClose(s, p + |Open|, ignoreCase) == Some(c)
    ensures RemoveSpans(s, ignoreCase) == s[..p] + RemoveSpans(s[c + |Close|..], ignoreCase)
  {
    FirstMatchIs(s, p, c, ignoreCase);
    MatchStep(s, p, c + |Close|, ignoreCase);
  }

  lemma FirstMatchIs(s: string, p: nat, c: nat, ignoreCase: bool)
    requires FirstSpan(s, 0, ignoreCase) == Some(p)
    requires NearestClose(s, p + |Open|, ignoreCase) == Some(c)
    ensures FirstMatch(s, ignoreCase) == Some((p, c + |Close|))
  {
  }

  lemma MatchStep(s: string, p: nat, e: nat, ignoreCase: bool)
    requires FirstMatch(s, ignoreCase) == Some((p, e))
    ensures e <= |s| && RemoveSpans(s, ignoreCase) == s[..p] + RemoveSpans(s[e..], ignoreCase)
  {
  }

  lemma SuffixThroughStep(s: string, p: nat, e: nat, i: nat, r: string, pr: string)
    requires p <= e <= i <= |s|
    requires IsSuffix(s[e..][i - e..], r) && pr == s[..p] + r
    ensures IsSuffix(s[i..], pr)
  {
    assert s[e..][i - e..] == s[i..];
    SuffixExtends(s[i..], s[..p], r, pr);
  }

  lemma SuffixExtends(t: string, a: string, r: string, ar: string)
    requires IsSuffix(t, r) && ar == a + r
    ensures IsSuffix(t, ar)
  {
    assert (a + r)[|a + r| - |t|..] == r[|r| - |t|..];
  }

  /** An opening tag with no closing tag after it is not a span: it and
      everything after it are left intact at the end of the output. */
  lemma UnterminatedKept(s: string, i: nat, ignoreCase: bool)
    requires TagAt(s, i, Open, ignoreCase)
    requires NearestClose(s, i + |Open|, ignoreCase).None?
    ensures IsSuffix(s[i..], RemoveSpans(s, ignoreCase))
  {
    NearestCloseLeftmost(s, i + |Open|, ignoreCase);
    forall k: nat | i <= k
      ensures !TagAt(s, k, Close, ignoreCase)
    {
      if TagAt(s, k, Close, ignoreCase) {
        CloseNotInsideOpen(s, i, k, ignoreCase);
      }
    }
    TagStartsWithLt(s, i, Open, ignoreCase);
    KeepsTail(s, i, ignoreCase);
  }

  /** With IGNORECASE an upper-case span is removed; the case-sensitive
      pattern leaves the same text alone. */
  lemma CaseSensitivity(x: string)
    requires x == "<THINK>x</THINK>"
    ensures RemoveSpans(x, true) == ""
    ensures RemoveSpans(x, false) == x
  {
    UpperRemoved(x);
    UpperNoOpen(x);
    NoTagUnchanged(x, false);
  }

  lemma UpperRemoved(x: string)
    requires x == "<THINK>x</THINK>"
    ensures RemoveSpans(x, true) == ""
  {
    var o, c := "<THINK>", "</THINK>";
    UpperTags(o, c);
    NoLtNoTag("x", Close, true);
    NoLtNoTag("", Open, true);
    SpanRemoved("", o, "x", c, "", true);
    assert "" + o + "x" + c + "" == x;
    NoTagUnchanged("", true);
  }

  lemma UpperTags(o: string, c: string)
    requires o == "<THINK>" && c == "</THINK>"
    ensures TagAt(o, 0, Open, true) && TagAt(c, 0, Close, true)
  {
    TagAtChars(o, 0, Open, true);
    TagAtChars(c, 0, Close, true);
  }

  lemma UpperNoOpen(x: string)
    requires x == "<THINK>x</THINK>"
    ensures forall k: nat :: !TagAt(x, k, Open, false)
  {
    forall k: nat | TagAt(x, k, Open, false) ensures false {
      TagStartsWithLt(x, k, Open, false);
      TagAtChars(x, k, Open, false);
    }
  }

  /** Removing a span can join the text around it into a new span, so the
      extraction sanitiser is not idempotent: its output may still hold a
      complete `<think>...</think>` span. */
  lemma SanitizeNotIdempotent(x: string)
    requires x == "<th" + Open + Close + "ink></think>"
    ensures SanitizeRaw(x) == Open + Close
    ensures SanitizeRaw(SanitizeRaw(x)) == ""
  {
    JoinedSpan(x);
    SplitPieces("<th", "ink></think>");
    StripFixpoint(Open + Close);
    TagsRemovedTogether(true);
    StripFixpoint("");
  }

  /** Removing the inner span of the counterexample joins its halves. */
  lemma JoinedSpan(x: string)
    requires x == "<th" + Open + Close + "ink></think>"
    ensures RemoveSpans(x, true) == Open + Close
  {
    var pre, post := "<th", "ink></think>";
    SplitPieces(pre, post);
    TagsMatchThemselves(true);
    NoLtNoTag("", Close, true);
    SpanRemoved(pre, Open, "", Close, post, true);
    AppendEmpty(pre + Open);
    NoTagUnchanged(post, true);
  }

  /** A sequence identity with no counterpart in the program: it keeps the
      unfolding in the proofs that call it local. */
  lemma AppendEmpty(a: string)
    ensures a + "" == a
  {
  }

  lemma TagsMatchThemselves(ignoreCase: bool)
    ensures TagAt(Open, 0, Open, ignoreCase) && TagAt(Close, 0, Close, ignoreCase)
  {
    TagAtChars(Open, 0, Open, ignoreCase);
    TagAtChars(Close, 0, Close, ignoreCase);
  }

  /** The two halves of the counterexample hold no opening tag, and put
      together they form a complete span. */
  lemma SplitPieces(pre: string, post: string)
    requires pre == "<th" && post == "ink></think>"
    ensures forall k: nat :: !TagAt(pre, k, Open, true)
    ensures forall k: nat :: !TagAt(post, k, Open, true)
    ensures pre + post == Open + Close
    ensures NoEdgeSpace(Open + Close)
  {
    forall k: nat | TagAt(post, k, Open, true) ensures false {
      TagStartsWithLt(post, k, Open, true);
      TagAtChars(post, k, Open, true);
    }
  }

  /** An opening tag directly followed by a closing tag is removed. */
  lemma TagsRemovedTogether(ignoreCase: bool)
    ensures RemoveSpans(Open + Close, ignoreCase) == ""
  {
    TagsMatchThemselves(ignoreCase);
    NoLtNoTag("", Open, ignoreCase);
    NoLtNoTag("", Close, ignoreCase);
    SpanRemoved("", Open, "", Close, "", ignoreCase);
    assert "" + Open + "" + Close + "" == Open + Close;
    NoTagUnchanged("", ignoreCase);
  }
}

=== FILE: wrappers.dfy ===
/** Failure-carrying values used across the model: `Option` for "maybe absent"
    and `Result` for the operations that raise in the original program. */
module Wrappers {

  datatype Option<+T> = None | Some(value: T)

  /** `Success` for a normal return, `Failure` for a raised exception. */
  datatype Result<+R, +E> = Success(value: R) | Failure(error: E)
}
